=== FILE: README.md ===
# SOS alerts and reminders: a verified model of the request validators and the alert fan-out

The system is a small web service for elderly-care alerts, in one file,
`main.py`. It accepts two kinds of request:

- an **SOS alert**: user id, emergency-button flag, emergency contacts
  `"Name:Phone"`, a GPS string `"lat,lon"`, and vital signs (SpO2, a
  `"systolic/diastolic"` blood pressure, and a pulse);
- a **reminder**: user id, type, text, and a time.

Each field passes through a validator before the record is stored. After an
SOS alert is stored, one SMS is sent per emergency contact.

This project models that logic in Dafny as pure functions and proves what it
promises. It covers:

- the seven field validators;
- how a request's field errors are gathered;
- `VitalInfo.is_normal`;
- `Reminder.postpone_reminder`;
- the contact loop of `send_sos_alert`, with every send's outcome supplied by an oracle;
- the two create routes, without the web framework or the database.

Modules, one per file:

| file | module | contents |
|---|---|---|
| wrappers.dfy | `Wrappers` | `Option`, `Result` |
| pytext.dfy | `PyText` | the Python string built-ins the validators call: `isdigit`, `int`, `str`, `split(sep)` |
| words.dfy | `Words` | `str.split()` with no separator; word counting |
| fields.dfy | `Fields` | error kinds and messages, field locations, how errors are gathered, `validate_user_id` |
| vitals.dfy | `Vitals` | `VitalInfo`, `validate_blood_pressure`, `is_normal` |
| sos_request.dfy | `SosRequests` | `SOSRequest` and its GPS, contact and user-id validators |
| reminder_request.dfy | `ReminderRequests` | `ReminderRequest` and its type, text and time validators |
| reminders.dfy | `Reminders` | the stored `Reminder`, `postpone_reminder` |
| dispatch.dfy | `Dispatch` | `send_sos_alert`: the message and the loop over contacts |
| service.dfy | `Service` | `create_sos_alert`, `create_reminder` |

How the code's behaviour is represented:

- **Validation errors.** A field validator returns `Result<T, Error>`. There is one
  `Error` constructor per message main.py raises, and `Fields.Message` gives the
  text. A request model validates every field in declaration order. Each failing
  field contributes one `FieldError`, located at its field. The nested
  `vital_info` reports its inner error under `vital_info.blood_pressure`. The
  request is returned unchanged when nothing failed.
- **Behaviour worth knowing, as the code has it:**
  - Every failing field is reported, in declaration order. Within one field,
    the first check that fails wins.
  - A contact may have an empty name (`":123"` is accepted). An entry with a
    second `':'` is rejected.
  - A blood pressure without exactly one `'/'` fails in the tuple unpacking on
    line 79, before the format check runs. The error is Python's unpacking
    message (`BloodPressureUnpack`), not "Blood pressure should be in the format
    'systolic/diastolic'".
- **Parameters for things outside the model:**
  - `parseFloat` stands for Python's `float` on one GPS piece.
  - `renderFloat` stands for `str` of the SpO2 float.
  - `sent(k)` is the outcome of the k-th SMS request.
  - `now` is `datetime.now()`.
  - `id` is the id the database assigns.
- **Times** are whole microseconds, the resolution of `datetime`. One minute is
  `60_000_000`.

## Model

| member | source | states |
|---|---|---|
| PyText.NatToDecimal | main.py:195 | `str(n)` of a natural number is a digit string that `int` reads back as n, with no leading zero |
| PyText.IntToDecimal | main.py:195-200 | `str(n)` of an int, as the message writes the user id and the unvalidated pulse: a non-negative n gives digits that read back as n, with no leading zero unless n is 0; a negative one gives '-' followed by the canonical digits of -n |
| PyText.ValuePositiveIffNonZeroDigit | main.py:84 | for a digit string, `int(s) > 0` holds exactly when some digit is not '0', so "00" is zero |
| PyText.SplitOn | main.py:79 | `s.split(sep)` has one more part than s has separators, no part contains sep, and joining the parts with sep gives s back |
| PyText.SplitJoinInverse | main.py:118 | splitting undoes joining, for parts that do not contain the separator |
| PyText.SplitInTwo | main.py:79 | `split(sep)` has exactly two parts exactly when sep occurs once; those parts are the text before and the text after it |
| PyText.SplitOfJoinedPair | main.py:118-119 | `a + sep + b`, with sep in neither side, splits back into a and b |
| Words.WordCountIsRunStarts | main.py:161 | `len(v.split())` equals the number of non-whitespace characters that start the text or follow whitespace |
| Words.Split | main.py:161 | every element of `v.split()` is a word: non-empty and free of whitespace (where each word begins and ends is stated by `SplitSkipsSpace` and `SplitWordThenSpace`) |
| Words.SplitSkipsSpace | main.py:161 | whitespace before the text adds no word: `(sp + t).split() == t.split()` for any all-whitespace sp |
| Words.SplitWordThenSpace | main.py:161 | a word followed by whitespace or by the end of the text is the first element of the split, and the rest of the split is that of the remaining text |
| Words.SplitKeepsAllText | main.py:161 | `split()` drops only whitespace: its words put together are the text's non-whitespace characters |
| Words.SplitJoinSpaced | main.py:161 | `" ".join(ws).split() == ws` for any list of words |
| Words.WordCount | main.py:161 | a one-pass cross-check of `Split` with no counterpart in main.py: a single left-to-right scan counts the same words as `len(v.split())` |
| Fields.ValidateUserId | main.py:125-130 | a user id is accepted exactly when it is positive, and the error is "User ID must be a positive integer" |
| Fields.FilledInMessages | main.py:162 | the two messages with a value filled in read "Reminder text must be within 50 words" for the limit of 50, and "not enough values to unpack (expected 2, got 1)" for a reading with no '/' unpacked at line 79 |
| Fields.MessageTellsErrorsApart | main.py:79-172 | the ValueError texts main.py can raise differ for different errors, except that every unpacking into more than two parts gives the same text |
| Vitals.ValidateBloodPressure | main.py:76-86 | accepted exactly when there is one '/' with a non-empty digit string of positive value on each side; the wrong number of parts gives the unpacking error, non-digits give the format error, and a zero side gives the positivity error |
| Vitals.BloodPressureOfNumbers | main.py:79-86 | `str(s) + "/" + str(d)` is accepted exactly when both numbers are positive |
| Vitals.BloodPressureOfSides | main.py:79-86 | a reading made of two slash-free sides is judged on the sides alone, format check before positivity check |
| Vitals.BloodPressureOfPositiveSides | main.py:80-86 | two digit strings without a leading zero always form an accepted reading |
| Vitals.BloodPressureAcceptedExample | main.py:73 | the field's example value "120/80" is accepted unchanged |
| Vitals.BloodPressureNonDigitSide | main.py:80-83 | a side that is not a digit string ("abc", "-5", empty) gives the format error, whatever the other side holds |
| Vitals.BloodPressureZeroSide | main.py:84-85 | an all-zero side ("0", "00") passes the digit check and gives the positivity error |
| Vitals.BloodPressureUnpackExamples | main.py:79 | "120/80/1" fails the unpacking with three parts, and "120" with one |
| Vitals.NormalRangeEdges | main.py:88-90 | SpO2 of exactly 90 is not normal; pulses 60 and 100 are normal; pulses 59 and 101 are not |
| Vitals.NormalIgnoresBloodPressure | main.py:88-90 | the blood-pressure reading plays no part in `is_normal` |
| Vitals.ValidateVitalInfo | main.py:70-86 | a `VitalInfo` is accepted exactly when its blood pressure is; otherwise there is one error, at blood_pressure |
| Vitals.VitalsErrorAt | main.py:101 | nested under vital_info, the vitals report an error at vital_info.blood_pressure exactly when the reading is rejected |
| Vitals.VitalsNestedErrors | main.py:76-86 | nested under vital_info, the vitals report nothing for an accepted reading, and otherwise exactly one error: the blood-pressure validator's own, at vital_info.blood_pressure |
| SosRequests.ValidateGps | main.py:103-112 | a location is accepted exactly when it has one comma and both sides parse to a latitude in [-90, 90] and a longitude in [-180, 180]; every failure gives the single "Invalid GPS coordinates format" error |
| SosRequests.GpsOfParts | main.py:107-108 | for `lat + "," + lon` with parseable sides, acceptance depends only on the range check |
| SosRequests.GpsNeedsOneComma | main.py:106-111 | a location without exactly one comma is rejected with the format error, whatever the parser would say |
| SosRequests.ValidateContact | main.py:117-122 | a contact is accepted exactly when it has one ':' with a non-empty digit string after it; the name may be empty |
| SosRequests.ValidateContacts | main.py:114-123 | a list is accepted exactly when every entry is; the empty list is accepted |
| SosRequests.ContactOfParts | main.py:118-119 | `name + ":" + phone`, with no ':' in either part, is accepted exactly when the phone is a digit string |
| SosRequests.OneBadContactRejects | main.py:117-122 | one bad entry anywhere rejects the whole list |
| SosRequests.SosUserIdError | main.py:125-130 | an `SOSRequest` reports the user_id error exactly when the id is not positive |
| SosRequests.SosContactsError | main.py:114-123 | an `SOSRequest` reports the contacts error exactly when some contact is malformed |
| SosRequests.SosGpsError | main.py:103-112 | an `SOSRequest` reports the GPS error exactly when the location is rejected |
| SosRequests.SosVitalsError | main.py:101 | an `SOSRequest` reports an error at vital_info.blood_pressure exactly when the reading is rejected |
| SosRequests.SosErrorsOnlyFailing | main.py:76-130 | every error of an `SOSRequest` is the fixed message of user_id, emergency_contacts or gps_location, or the blood-pressure validator's own error at vital_info.blood_pressure; the latter appears exactly when the reading is rejected |
| SosRequests.SosErrorsInFieldOrder | main.py:93-130 | an `SOSRequest`'s errors come in field declaration order, at most one per field |
| SosRequests.ValidateSosRequest | main.py:76-130 | an `SOSRequest` is accepted unchanged exactly when every rule holds; otherwise the errors are non-empty and in declaration order, each failing field reports its own error, and no other error appears; at `vital_info.blood_pressure` the error is the one the blood-pressure validator raised |
| ReminderRequests.ValidateReminderType | main.py:149-155 | a type is accepted exactly when it equals "Medication", "Daily Tasks" or "Doctor Appointments" |
| ReminderRequests.ReminderTypeCaseSensitive | main.py:152-153 | swapping the case of any one ASCII letter of an allowed type makes it rejected |
| ReminderRequests.ReminderTypeNotTrimmed | main.py:152-153 | an allowed type with a leading or trailing space is rejected |
| ReminderRequests.ValidateReminderText | main.py:157-163 | text is accepted exactly when it has at most 50 words; otherwise the error is "Reminder text must be within 50 words" |
| ReminderRequests.BlankHasNoWords | main.py:161 | text made only of whitespace, or empty, has no words |
| ReminderRequests.BlankTextAccepted | main.py:160-163 | blank text is accepted |
| ReminderRequests.WordLimitIsInclusive | main.py:160-163 | words joined by spaces are accepted exactly when there are at most 50: 50 pass, 51 fail |
| ReminderRequests.ValidateReminderTime | main.py:165-173 | a time is accepted exactly when it is more than one minute after now; at or before now gives "in the future"; within the following minute gives "at least 1 minute ahead" |
| ReminderRequests.FutureCheckSubsumed | main.py:169-172 | everything the "in the future" check rejects, the "1 minute ahead" check rejects too; a time is rejected exactly when it is at most one minute after now |
| ReminderRequests.TimeVerdictShiftInvariant | main.py:168-173 | only the distance from now matters: moving both the time and now by the same amount keeps the verdict |
| ReminderRequests.TimeAcceptanceMonotone | main.py:171-173 | if a time is accepted, every later time is too |
| ReminderRequests.ReminderUserIdError | main.py:142-147 | a `ReminderRequest` reports the user_id error exactly when the id is not positive |
| ReminderRequests.ReminderTypeError | main.py:149-155 | a `ReminderRequest` reports the type error exactly when the type is not allowed |
| ReminderRequests.ReminderTextError | main.py:157-163 | a `ReminderRequest` reports the text error exactly when the text has more than 50 words |
| ReminderRequests.ReminderTimeError | main.py:165-173 | a `ReminderRequest` reports the "in the future" error exactly when the time is not after now, and the "1 minute ahead" error exactly when it is within the next minute |
| ReminderRequests.ReminderErrorsOnlyFailing | main.py:133-173 | every error of a `ReminderRequest` is the fixed message of user_id, reminder_type or reminder_text, or one of the two messages of reminder_time |
| ReminderRequests.ReminderErrorsInFieldOrder | main.py:133-173 | a `ReminderRequest`'s errors come in field declaration order, at most one per field |
| ReminderRequests.ValidateReminderRequest | main.py:133-173 | a `ReminderRequest` is accepted unchanged exactly when every rule holds; otherwise each failing field reports its own error, in declaration order, and no other error appears |
| Reminders.Postpone | main.py:63-67 | postponing moves the time by exactly `minutes` minutes and changes nothing else |
| Reminders.PostponeCompose | main.py:63-67 | postponing by a and then by b is the same as postponing once by a + b |
| Reminders.PostponeZero | main.py:63-67 | postponing by zero minutes changes nothing |
| Reminders.PostponeInverse | main.py:63-67 | postponing by -m undoes postponing by m |
| Reminders.PostponeInjective | main.py:63-67 | different reminders stay different after the same postponement, and different delays give different results |
| Reminders.PostponeMonotone | main.py:63-67 | postponing keeps the order of two reminders' times, and a longer delay gives a later time |
| Reminders.PostponeKeepsTimeValid | main.py:63-67 | a time the reminder validator accepted is still accepted against the same moment after a non-negative postponement |
| Dispatch.RecipientIsSecondPart | main.py:210 | the recipient is `contact.split(":")[1]`: the text after the first ':', up to a second ':' if there is one |
| Dispatch.RecipientOfOneColon | main.py:210 | for a contact with exactly one ':', the recipient is everything after it |
| Dispatch.SendFrom | main.py:202-218 | the loop attempts one send per contact, never more sends than contacts; it ends early exactly when some contact has no ':', and it stops at the first such contact |
| Dispatch.SendFromAttempts | main.py:202-212 | the j-th send goes to the j-th contact's recipient and carries the message |
| Dispatch.SendFromLog | main.py:215-218 | the j-th log line names the j-th contact and reports whether its send succeeded |
| Dispatch.SendAll | main.py:202-218 | over the whole list: sends and log lines follow the contacts in order; a failed send does not end the loop; only a contact without ':' does |
| Dispatch.AttemptsIgnoreOutcomes | main.py:203-218 | the sends attempted, and whether the loop ends early, do not depend on whether any send succeeds |
| Dispatch.SameBodyForAll | main.py:194-211 | every send carries the same message |
| Dispatch.OneSendPerContact | main.py:202-218 | contacts with exactly one ':' each are all sent to, in order, each at the text after its ':' |
| Dispatch.MessageReadsBack | main.py:194-201 | when no field holds a line break, splitting the message on "\n" gives back its six lines, each field on its own line |
| Dispatch.SendSosAlert | main.py:188-218 | every send carries the message built from the alert; the loop runs to the end exactly when every contact has a ':' |
| Service.CreateSosAlert | main.py:221-247 | an invalid SOS body gives its field errors; a valid one is stored unchanged, and then exactly one send per contact goes, in order, to the contact's phone with the alert's message |
| Service.CreateReminder | main.py:250-274 | an invalid reminder body gives its field errors; a valid one is stored unchanged, of an allowed type and due more than a minute after now |
| Service.UserIdRuleShared | main.py:142-147 | both request models reject the same user ids with the same error |
| Service.PostponedReminderStillAhead | main.py:63-67 | a stored reminder postponed by any non-negative number of minutes is still more than a minute after the moment it was created |

## Left out

- The FastAPI app, routes, `Depends` and the response dictionaries, including the list and read routes. They are framework wiring.
- The SQLAlchemy engine, sessions, ORM mapping, `get_db`, `add`/`commit`/`refresh`, and paged queries. They belong to a library outside the model. The id a stored row receives is a parameter. No query orders its rows, so there is no ordering to state.
- The storing of `vital_info` as JSON (`sos.vital_info.dict()`) is treated as keeping the values unchanged.
- `requests.post`, its authentication, timeout and HTTP status. These are network I/O. The outcome of each send is the oracle `sent`. Exceptions other than `RequestException` are not modelled.
- The printed log text. Only which contact a line names and whether the send succeeded are kept. The exception text `{e}` of a failed send is not modelled.
- `datetime.now()`. It is the parameter `now`.
- ISO-8601 parsing and `isoformat`, in the request, in storage and in `postpone_reminder`. Times are microsecond counts, and the text round trip is taken as exact.
- The `datetime` year range (1..9999), so the `OverflowError` of a postponement past it is not modelled. Time zones are not modelled either: comparing an aware time with the naive `now` raises a `TypeError`.
- Python's `float()` of a GPS piece and `str()` of the SpO2 float. They are the parameters `parseFloat` and `renderFloat`. A piece that parses to NaN or an infinity fails the range check in the same way as one that does not parse, so `parseFloat` returns `None` for both.
- SpO2 is a `real`, and `is_normal` compares it with 90. Float rounding is not modelled.
- Vitals.ValidateBloodPressure: accepts positive digit sides of any length. CPython 3.11 and later (and the 3.8 to 3.10 security releases) limit `int()` of a decimal string to 4300 digits by default, so a side longer than that is rejected there with "Exceeds the limit (4300 digits) for integer string conversion". The model has no such limit and no constructor for that message, because the limit is a setting of the interpreter (`sys.set_int_max_str_digits`) rather than a rule of main.py.
- Fields.Message is a table of the texts, with no contract of its own. What it promises is stated by `Fields.FilledInMessages` and `Fields.MessageTellsErrorsApart`.
- Fields.Message: gives the unpacking message for "too many values" in the wording of CPython up to 3.13, "too many values to unpack (expected 2)". Later versions append ", got N".
- PyText.IsDigits: accepts only the ASCII digits '0'..'9'. Python's `isdigit` also accepts other Unicode digits, such as superscripts, and `int` would reject some of those.
- Pydantic's type coercion (for example `"5"` for an `int` field, or `"yes"` for a `bool` field) and its errors for missing or mistyped fields. The model starts from values that already have the declared types.
- `SOSAlert.__repr__`, `Reminder.__repr__` and `SOSAlert.update_emergency_contacts`. They are formatting and a plain field assignment.
- `Vitals.IsNormal` is a predicate with no contract of its own. What it promises is stated by `Vitals.NormalRangeEdges` and `Vitals.NormalIgnoresBloodPressure`.

=== FILE: dispatch.dfy ===
/**
 `send_sos_alert` of main.py as a pure function. The message is built once;
 then, for each stored contact in list order, the recipient is the second
 ':'-separated part of the contact and one send is attempted. A send that
 fails (the request raising or the response status being an error) is logged
 and the loop goes on; a contact with no ':' makes `contact.split(":")[1]`
 raise an `IndexError` that nothing catches, which ends the loop there.

 The outcome of the k-th send (counting from 0) is the oracle `sent(k)`, which
 stands for the HTTP exchange with the SMS provider.
 */
module Dispatch {
  import opened PyText

  /**
   One send, for the contact entry `contact`, with the message ("Body"). Its
   recipient ("To") is `Recipient(contact)`; the loop only sends for contacts
   that have one.
   */
  datatype Attempt = Attempt(contact: string, body: string)

  /** What the loop prints after a send, naming the whole contact entry. */
  datatype LogEntry = Delivered(contact: string) | DeliveryFailed(contact: string)

  /** The sends attempted and the log lines, in order, and whether an uncaught error ended the loop. */
  datatype Report = Report(attempts: seq<Attempt>, log: seq<LogEntry>, aborted: bool)

  /** The contact has a ':', so `contact.split(":")` has a second part. */
  predicate HasColon(contact: string) {
    ':' in contact
  }

  /**
   `contact.split(":")[1]`, defined when the contact has at least one ':': the
   text after the first ':', up to a second ':' if there is one.
   */
  function Recipient(contact: string): string
    requires HasColon(contact)
  {
    var rest := After(contact, ':');
    if ':' in rest then Before(rest, ':') else rest
  }

  /** The recipient is the second part of splitting the contact on ':'. */
  lemma RecipientIsSecondPart(contact: string)
    requires ':' in contact
    ensures |SplitOn(contact, ':')| >= 2
    ensures Recipient(contact) == SplitOn(contact, ':')[1]
  {
    var i := IndexOf(contact, ':');
    var rest := contact[i + 1..];
    assert SplitOn(contact, ':')[1..] == SplitOn(rest, ':');
    if ':' in rest {
      var i2 := IndexOf(rest, ':');
      assert SplitOn(rest, ':')[0] == rest[..i2];
    }
  }

  /** For a contact with exactly one ':', the recipient is everything after it. */
  lemma RecipientOfOneColon(contact: string)
    requires ':' in contact && multiset(contact)[':'] == 1
    ensures Recipient(contact) == After(contact, ':')
  {
    SplitInTwo(contact, ':');
  }

  /** The log line of the send to `contact`. */
  function Outcome(contact: string, ok: bool): LogEntry {
    if ok then Delivered(contact) else DeliveryFailed(contact)
  }

  /**
   The loop over `contacts`, whose first entry is the `offset`-th send of the
   whole run (the oracle is asked about sends by their position in the run).
   */
  function SendFrom(contacts: seq<string>, body: string, sent: nat -> bool, offset: nat): (rep: Report)
    ensures |rep.log| == |rep.attempts| <= |contacts|
    ensures rep.aborted <==> exists k :: 0 <= k < |contacts| && !HasColon(contacts[k])
    ensures !rep.aborted ==> |rep.attempts| == |contacts|
    ensures rep.aborted ==> |rep.attempts| < |contacts| && !HasColon(contacts[|rep.attempts|])
    ensures forall j :: 0 <= j < |rep.attempts| ==> HasColon(contacts[j])
  {
    if |contacts| == 0 then Report([], [], false)
    else if !HasColon(contacts[0]) then Report([], [], true)
    else
      var rest := SendFrom(contacts[1..], body, sent, offset + 1);
      Report([Attempt(contacts[0], body)] + rest.attempts,
             [Outcome(contacts[0], sent(offset))] + rest.log,
             rest.aborted)
  }

  /** The j-th send is for the j-th contact, which has a recipient, and carries the one message. */
  lemma {:induction false} SendFromAttempts(contacts: seq<string>, body: string, sent: nat -> bool, offset: nat)
    ensures var rep := SendFrom(contacts, body, sent, offset);
      forall j :: 0 <= j < |rep.attempts| ==>
        HasColon(contacts[j]) && rep.attempts[j] == Attempt(contacts[j], body)
  {
    if |contacts| > 0 && HasColon(contacts[0]) {
      var rest := SendFrom(contacts[1..], body, sent, offset + 1);
      SendFromAttempts(contacts[1..], body, sent, offset + 1);
      var rep := SendFrom(contacts, body, sent, offset);
      forall j | 1 <= j < |rep.attempts|
        ensures HasColon(contacts[j]) && rep.attempts[j] == Attempt(contacts[j], body)
      {
        assert rep.attempts[j] == rest.attempts[j - 1];
        assert contacts[j] == contacts[1..][j - 1];
      }
    }
  }

  /** The j-th log line names the j-th contact and reports the oracle's outcome for send offset + j. */
  lemma {:induction false} SendFromLog(contacts: seq<string>, body: string, sent: nat -> bool, offset: nat)
    ensures var rep := SendFrom(contacts, body, sent, offset);
      forall j :: 0 <= j < |rep.log| ==> rep.log[j] == Outcome(contacts[j], sent(offset + j))
  {
    if |contacts| > 0 && HasColon(contacts[0]) {
      var rest := SendFrom(contacts[1..], body, sent, offset + 1);
      SendFromLog(contacts[1..], body, sent, offset + 1);
      var rep := SendFrom(contacts, body, sent, offset);
      forall j | 1 <= j < |rep.log|
        ensures rep.log[j] == Outcome(contacts[j], sent(offset + j))
      {
        assert rep.log[j] == rest.log[j - 1];
        assert contacts[j] == contacts[1..][j - 1];
      }
    }
  }

  /** `send_sos_alert`'s loop over every contact. */
  function SendAll(contacts: seq<string>, body: string, sent: nat -> bool): (rep: Report)
    ensures |rep.log| == |rep.attempts| <= |contacts|
    ensures rep.aborted <==> exists k :: 0 <= k < |contacts| && !HasColon(contacts[k])
    ensures !rep.aborted ==> |rep.attempts| == |contacts|
    ensures rep.aborted ==> |rep.attempts| < |contacts| && !HasColon(contacts[|rep.attempts|])
    ensures forall j :: 0 <= j < |rep.attempts| ==>
      HasColon(contacts[j]) && rep.attempts[j] == Attempt(contacts[j], body)
    ensures forall j :: 0 <= j < |rep.log| ==> rep.log[j] == Outcome(contacts[j], sent(j))
  {
    SendFromAttempts(contacts, body, sent, 0);
    SendFromLog(contacts, body, sent, 0);
    SendFrom(contacts, body, sent, 0)
  }

  /**
   A failed send does not stop the loop: the sends attempted, and whether the
   loop ends early, do not depend on the outcomes.
   */
  lemma {:induction false} AttemptsIgnoreOutcomes(contacts: seq<string>, body: string, s1: nat -> bool, s2: nat -> bool, offset: nat)
    ensures SendFrom(contacts, body, s1, offset).attempts == SendFrom(contacts, body, s2, offset).attempts
    ensures SendFrom(contacts, body, s1, offset).aborted == SendFrom(contacts, body, s2, offset).aborted
  {
    if |contacts| > 0 && HasColon(contacts[0]) {
      AttemptsIgnoreOutcomes(contacts[1..], body, s1, s2, offset + 1);
    }
  }

  /** Every send carries the same message. */
  lemma SameBodyForAll(contacts: seq<string>, body: string, sent: nat -> bool)
    ensures forall a :: a in SendAll(contacts, body, sent).attempts ==> a.body == body
  {
  }

  /** Contacts "name:phone" with one ':' each are all sent to, each at its phone, in order. */
  lemma OneSendPerContact(contacts: seq<string>, body: string, sent: nat -> bool)
    requires forall k :: 0 <= k < |contacts| ==> ':' in contacts[k] && multiset(contacts[k])[':'] == 1
    ensures var rep := SendAll(contacts, body, sent);
      && !rep.aborted
      && |rep.attempts| == |contacts|
      && forall j :: 0 <= j < |contacts| ==>
           rep.attempts[j].contact == contacts[j] && Recipient(contacts[j]) == After(contacts[j], ':')
  {
    var rep := SendAll(contacts, body, sent);
    forall j | 0 <= j < |contacts|
      ensures Recipient(contacts[j]) == After(contacts[j], ':')
    {
      RecipientOfOneColon(contacts[j]);
    }
  }

  /** The text of the message, built before the loop; `spo2` is the float as Python's `str` renders it. */
  function SosMessage(userId: int, gps: string, spo2: string, bloodPressure: string, pulse: int): string
  {
    ("SOS Alert! User ID: " + IntToDecimal(userId)) + "\n"
    + ("Location: " + gps) + "\n"
    + "Vital Information:" + "\n"
    + ("  - SpO2: " + spo2) + "\n"
    + ("  - Blood Pressure: " + bloodPressure) + "\n"
    + ("  - Pulse: " + IntToDecimal(pulse)) + "\n"
  }

  /** The lines of the message. */
  function MessageLines(userId: int, gps: string, spo2: string, bloodPressure: string, pulse: int): seq<string>
  {
    [ "SOS Alert! User ID: " + IntToDecimal(userId),
      "Location: " + gps,
      "Vital Information:",
      "  - SpO2: " + spo2,
      "  - Blood Pressure: " + bloodPressure,
      "  - Pulse: " + IntToDecimal(pulse),
      "" ]
  }

  lemma JoinOnCons(a: string, rest: seq<string>, sep: char)
    requires |rest| > 0
    ensures JoinOn([a] + rest, sep) == a + [sep] + JoinOn(rest, sep)
  {
    assert ([a] + rest)[1..] == rest;
  }

  /** Seven pieces joined with sep, written out. */
  lemma JoinSeven(l0: string, l1: string, l2: string, l3: string, l4: string, l5: string, l6: string, sep: char)
    ensures JoinOn([l0, l1, l2, l3, l4, l5, l6], sep)
         == l0 + [sep] + l1 + [sep] + l2 + [sep] + l3 + [sep] + l4 + [sep] + l5 + [sep] + l6
  {
    JoinOnCons(l5, [l6], sep);
    assert [l5, l6] == [l5] + [l6];
    JoinOnCons(l4, [l5, l6], sep);
    assert [l4, l5, l6] == [l4] + [l5, l6];
    JoinOnCons(l3, [l4, l5, l6], sep);
    assert [l3, l4, l5, l6] == [l3] + [l4, l5, l6];
    JoinOnCons(l2, [l3, l4, l5, l6], sep);
    assert [l2, l3, l4, l5, l6] == [l2] + [l3, l4, l5, l6];
    JoinOnCons(l1, [l2, l3, l4, l5, l6], sep);
    assert [l1, l2, l3, l4, l5, l6] == [l1] + [l2, l3, l4, l5, l6];
    JoinOnCons(l0, [l1, l2, l3, l4, l5, l6], sep);
    assert [l0, l1, l2, l3, l4, l5, l6] == [l0] + [l1, l2, l3, l4, l5, l6];
  }

  /**
   When no field holds a line break, the message splits on "\n" into exactly
   its six lines and a final empty piece: each field can be read back from its line.
   */
  lemma MessageReadsBack(userId: int, gps: string, spo2: string, bloodPressure: string, pulse: int)
    requires '\n' !in gps && '\n' !in spo2 && '\n' !in bloodPressure
    ensures SplitOn(SosMessage(userId, gps, spo2, bloodPressure, pulse), '\n')
         == MessageLines(userId, gps, spo2, bloodPressure, pulse)
  {
    MessageIsJoinedLines(userId, gps, spo2, bloodPressure, pulse);
    LinesHaveNoBreak(userId, gps, spo2, bloodPressure, pulse);
    SplitJoinInverse(MessageLines(userId, gps, spo2, bloodPressure, pulse), '\n');
  }

  lemma MessageIsJoinedLines(userId: int, gps: string, spo2: string, bloodPressure: string, pulse: int)
    ensures JoinOn(MessageLines(userId, gps, spo2, bloodPressure, pulse), '\n')
         == SosMessage(userId, gps, spo2, bloodPressure, pulse)
  {
    var lines := MessageLines(userId, gps, spo2, bloodPressure, pulse);
    JoinSeven(lines[0], lines[1], lines[2], lines[3], lines[4], lines[5], lines[6], '\n');
    var m := SosMessage(userId, gps, spo2, bloodPressure, pulse);
    assert m + "" == m;
  }

  /** The fixed labels of the message hold no line break. */
  lemma LabelsHaveNoBreak()
    ensures '\n' !in "SOS Alert! User ID: " && '\n' !in "Location: " && '\n' !in "Vital Information:"
    ensures '\n' !in "  - SpO2: " && '\n' !in "  - Blood Pressure: " && '\n' !in "  - Pulse: "
  {
  }

  /** No line of the message holds a line break when no field does. */
  lemma LinesHaveNoBreak(userId: int, gps: string, spo2: string, bloodPressure: string, pulse: int)
    requires '\n' !in gps && '\n' !in spo2 && '\n' !in bloodPressure
    ensures var lines := MessageLines(userId, gps, spo2, bloodPressure, pulse);
      forall k :: 0 <= k < |lines| ==> '\n' !in lines[k]
  {
    LabelsHaveNoBreak();
    assert !IsDigit('\n');
    NoBreakInConcat("SOS Alert! User ID: ", IntToDecimal(userId));
    NoBreakInConcat("Location: ", gps);
    NoBreakInConcat("  - SpO2: ", spo2);
    NoBreakInConcat("  - Blood Pressure: ", bloodPressure);
    NoBreakInConcat("  - Pulse: ", IntToDecimal(pulse));
  }

  lemma NoBreakInConcat(a: string, b: string)
    requires '\n' !in a && '\n' !in b
    ensures '\n' !in a + b
  {
  }

  /** `send_sos_alert`: build the message from the stored alert, then run the loop. */
  function SendSosAlert(userId: int, contacts: seq<string>, gps: string, spo2: string,
                        bloodPressure: string, pulse: int, sent: nat -> bool): (rep: Report)
    ensures forall a :: a in rep.attempts ==> a.body == SosMessage(userId, gps, spo2, bloodPressure, pulse)
    ensures !rep.aborted <==> forall k :: 0 <= k < |contacts| ==> HasColon(contacts[k])
  {
    SendAll(contacts, SosMessage(userId, gps, spo2, bloodPressure, pulse), sent)
  }
}

=== FILE: fields.dfy ===
/**
 What a failed field validator of main.py reports, and the one validator the
 two request models share (`validate_user_id` is written out identically in
 `SOSRequest` and `ReminderRequest`; it is defined once here).

 The request models are validated field by field in declaration order; a field
 whose validator raises contributes one error located at the field's name
 (nested models extend the location with the inner field's name), and the
 other fields are still validated.
 */
module Fields {
  import opened Wrappers
  import PyText

  /** One constructor per message a validator of main.py raises. */
  datatype Error =
    | BloodPressureUnpack(parts: nat)   // `systolic, diastolic = v.split("/")` with parts != 2 pieces
    | BloodPressureFormat
    | BloodPressureNotPositive
    | GpsFormat
    | ContactFormat
    | UserIdNotPositive
    | ReminderTypeInvalid
    | ReminderTextTooLong(maxWords: nat)
    | ReminderTimeNotFuture
    | ReminderTimeTooSoon

  /** The text of the ValueError each error stands for. */
  function Message(e: Error): string
  {
    match e
    case BloodPressureUnpack(parts) =>
      // CPython's wording for a failed two-way tuple unpacking
      if parts < 2 then "not enough values to unpack (expected 2, got " + PyText.NatToDecimal(parts) + ")"
      else "too many values to unpack (expected 2)"
    case BloodPressureFormat => "Blood pressure should be in the format 'systolic/diastolic'"
    case BloodPressureNotPositive => "Blood pressure should be positive integers"
    case GpsFormat => "Invalid GPS coordinates format"
    case ContactFormat => "Emergency contact format should be 'Name:Phone'"
    case UserIdNotPositive => "User ID must be a positive integer"
    case ReminderTypeInvalid => "Invalid reminder type"
    case ReminderTextTooLong(maxWords) => "Reminder text must be within " + PyText.NatToDecimal(maxWords) + " words"
    case ReminderTimeNotFuture => "Reminder time must be in the future"
    case ReminderTimeTooSoon => "Reminder time must be at least 1 minute ahead"
  }

  /**
   The errors main.py can raise: `v.split("/")` has at least one part, so an
   unpacking fails with one part or with more than two, and the word limit of
   `validate_reminder_text` is 50.
   */
  predicate Raisable(e: Error) {
    && (e.BloodPressureUnpack? ==> e.parts == 1 || e.parts > 2)
    && (e.ReminderTextTooLong? ==> e.maxWords == 50)
  }

  /** The two messages that main.py fills in: the word limit and the number of parts. */
  lemma FilledInMessages()
    ensures Message(ReminderTextTooLong(50)) == "Reminder text must be within 50 words"
    ensures Message(BloodPressureUnpack(1)) == "not enough values to unpack (expected 2, got 1)"
  {
    assert PyText.NatToDecimal(5) == "5";
    assert PyText.NatToDecimal(50) == "50";
    assert PyText.NatToDecimal(1) == "1";
  }

  /** The length of each message main.py can raise; only one other shares the 47 of the short unpacking's. */
  lemma MessageLength(e: Error)
    requires Raisable(e)
    ensures |Message(e)| == match e
      case BloodPressureUnpack(parts) => if parts == 1 then 47 else 38
      case BloodPressureFormat => 59
      case BloodPressureNotPositive => 42
      case GpsFormat => 30
      case ContactFormat => 47
      case UserIdNotPositive => 34
      case ReminderTypeInvalid => 21
      case ReminderTextTooLong(_) => 37
      case ReminderTimeNotFuture => 35
      case ReminderTimeTooSoon => 45
  {
    FilledInMessages();
  }

  /**
   The message tells apart every two errors main.py can raise, except that
   all unpackings into more than two parts share one message.
   */
  lemma MessageTellsErrorsApart(a: Error, b: Error)
    requires Raisable(a) && Raisable(b)
    ensures Message(a) == Message(b)
        <==> a == b || (a.BloodPressureUnpack? && b.BloodPressureUnpack? && a.parts > 2 && b.parts > 2)
  {
    if Message(a) == Message(b) {
      MessageLength(a);
      MessageLength(b);
      FilledInMessages();
      if a == BloodPressureUnpack(1) || b == BloodPressureUnpack(1) {
        assert Message(a)[0] == Message(b)[0];
      }
    }
  }

  /** The validated fields of the request models. */
  datatype Field =
    | UserIdField | ButtonField | ContactsField | GpsField | VitalsField | BloodPressureField
    | TypeField | TextField | TimeField

  /** The attribute name of each field in main.py, which is how an error locates it. */
  function FieldName(f: Field): string
  {
    match f
    case UserIdField => "user_id"
    case ButtonField => "emergency_button_pressed"
    case ContactsField => "emergency_contacts"
    case GpsField => "gps_location"
    case VitalsField => "vital_info"
    case BloodPressureField => "blood_pressure"
    case TypeField => "reminder_type"
    case TextField => "reminder_text"
    case TimeField => "reminder_time"
  }

  /** An error together with the path of fields it belongs to (outermost first). */
  datatype FieldError = FieldError(loc: seq<Field>, error: Error)

  /** The error a field validator contributes: none when it passed, one at loc when it raised. */
  function ErrorsAt<T>(loc: seq<Field>, r: Result<T, Error>): (errs: seq<FieldError>)
    ensures r.Success? ==> errs == []
    ensures r.Failure? ==> errs == [FieldError(loc, r.error)]
  {
    match r
    case Success(_) => []
    case Failure(e) => [FieldError(loc, e)]
  }

  /** The errors a nested model reports, relocated under the name of the field that holds it. */
  function Nest(name: Field, errs: seq<FieldError>): (nested: seq<FieldError>)
    ensures |nested| == |errs|
    ensures forall k :: 0 <= k < |errs| ==> nested[k] == FieldError([name] + errs[k].loc, errs[k].error)
  {
    if |errs| == 0 then [] else [FieldError([name] + errs[0].loc, errs[0].error)] + Nest(name, errs[1..])
  }

  /** The errors a validated model reports (none on success). */
  function Errors<T>(r: Result<T, seq<FieldError>>): seq<FieldError>
  {
    if r.Failure? then r.error else []
  }

  /** Some error is located at loc. */
  predicate HasErrorAt(errs: seq<FieldError>, loc: seq<Field>) {
    exists k :: 0 <= k < |errs| && errs[k].loc == loc
  }

  /** At most one error, located at a path that starts with the field f. */
  predicate AtMostOneAt(errs: seq<FieldError>, f: Field) {
    |errs| <= 1 && forall k :: 0 <= k < |errs| ==> |errs[k].loc| > 0 && errs[k].loc[0] == f
  }

  /** A field validator contributes at most one error, located at its field. */
  lemma ErrorsAtOne<T>(f: Field, r: Result<T, Error>)
    ensures AtMostOneAt(ErrorsAt([f], r), f)
  {
  }

  /** A nested model with at most one error contributes at most one, located under its field. */
  lemma NestOne<T>(f: Field, r: Result<T, seq<FieldError>>)
    requires |Errors(r)| <= 1
    ensures AtMostOneAt(Nest(f, Errors(r)), f)
  {
  }

  /** The errors of two lists put together are located where the errors of either list are. */
  lemma HasErrorAtConcat(a: seq<FieldError>, b: seq<FieldError>, loc: seq<Field>)
    ensures HasErrorAt(a + b, loc) <==> HasErrorAt(a, loc) || HasErrorAt(b, loc)
  {
    if HasErrorAt(a, loc) {
      var k :| 0 <= k < |a| && a[k].loc == loc;
      assert (a + b)[k].loc == loc;
    }
    if HasErrorAt(a + b, loc) {
      var k :| 0 <= k < |a + b| && (a + b)[k].loc == loc;
      if k >= |a| {
        assert b[k - |a|].loc == loc;
      }
    }
    if HasErrorAt(b, loc) {
      var k :| 0 <= k < |b| && b[k].loc == loc;
      assert (a + b)[|a| + k].loc == loc;
    }
  }

  /** Nesting moves every location under f and keeps which locations have errors. */
  lemma HasErrorAtNest(f: Field, errs: seq<FieldError>, loc: seq<Field>)
    ensures HasErrorAt(Nest(f, errs), [f] + loc) <==> HasErrorAt(errs, loc)
  {
    var nested := Nest(f, errs);
    if HasErrorAt(nested, [f] + loc) {
      var k :| 0 <= k < |nested| && nested[k].loc == [f] + loc;
      assert [f] + errs[k].loc == [f] + loc;
      assert errs[k].loc == ([f] + errs[k].loc)[1..];
    }
    if HasErrorAt(errs, loc) {
      var k :| 0 <= k < |errs| && errs[k].loc == loc;
      assert nested[k].loc == [f] + loc;
    }
  }

  /** An error at another field is not among the errors of the field g. */
  lemma NotAtOtherField(errs: seq<FieldError>, g: Field, x: FieldError)
    requires AtMostOneAt(errs, g)
    requires |x.loc| > 0 && x.loc[0] != g
    ensures x !in errs && !HasErrorAt(errs, x.loc)
  {
  }

  /** Four pieces, the first three empty or holding their one listed error, hold only those and the fourth's. */
  lemma OnlyListed(a: seq<FieldError>, b: seq<FieldError>, c: seq<FieldError>, d: seq<FieldError>,
                   x: FieldError, y: FieldError, z: FieldError)
    requires a == [] || a == [x]
    requires b == [] || b == [y]
    requires c == [] || c == [z]
    ensures forall e :: e in a + b + c + d ==> e == x || e == y || e == z || e in d
    ensures forall e :: e in d ==> e in a + b + c + d
  {
  }

  /** Errors listed in the declaration order of their fields, `rank` giving each location's place. */
  predicate InFieldOrder(errs: seq<FieldError>, rank: seq<Field> -> nat) {
    forall i, j :: 0 <= i < j < |errs| ==> rank(errs[i].loc) < rank(errs[j].loc)
  }

  /** Every error of errs sits at a field ranked before n. */
  predicate RankedBefore(errs: seq<FieldError>, rank: seq<Field> -> nat, n: nat) {
    forall k :: 0 <= k < |errs| ==> rank(errs[k].loc) < n
  }

  /** Appending the at most one error of the field ranked n keeps the list in field order. */
  lemma AppendInFieldOrder(errs: seq<FieldError>, next: seq<FieldError>, rank: seq<Field> -> nat, n: nat)
    requires InFieldOrder(errs, rank) && RankedBefore(errs, rank, n)
    requires |next| <= 1 && forall k :: 0 <= k < |next| ==> rank(next[k].loc) == n
    ensures InFieldOrder(errs + next, rank) && RankedBefore(errs + next, rank, n + 1)
  {
  }

  /** `validate_user_id`, the same rule in both request models: accepted exactly when positive. */
  function ValidateUserId(v: int): (r: Result<int, Error>)
    ensures r.Success? <==> v > 0
    ensures r.Success? ==> r.value == v
    ensures r.Failure? ==> r.error == UserIdNotPositive
  {
    if v <= 0 then Failure(UserIdNotPositive) else Success(v)
  }
}

=== FILE: pytext.dfy ===
/**
 The Python string built-ins the validators of main.py lean on, as pure
 functions over `string`: `str.isdigit`, `int(...)` of a digit string,
 `str(n)` of an integer and `str.split(sep)` with an explicit separator.
 Digits are the ASCII digits '0'..'9' (Python's `isdigit` also accepts other
 Unicode digits; that wider set is not modelled).
 */
module PyText {

  /** `c.isdigit()` for one character. */
  predicate IsDigit(c: char) {
    '0' <= c <= '9'
  }

  /** Every character of s is a digit (true of the empty string). */
  predicate AllDigits(s: string) {
    forall i :: 0 <= i < |s| ==> IsDigit(s[i])
  }

  /** `s.isdigit()`: Python answers False for the empty string. */
  predicate IsDigits(s: string) {
    |s| > 0 && AllDigits(s)
  }

  /** Some digit of s differs from '0'. */
  predicate HasNonZeroDigit(s: string) {
    exists i :: 0 <= i < |s| && s[i] != '0'
  }

  function DigitValue(c: char): nat
    requires IsDigit(c)
  {
    c as int - '0' as int
  }

  function DigitChar(d: nat): (c: char)
    requires d < 10
    ensures IsDigit(c) && DigitValue(c) == d
  {
    ('0' as int + d) as char
  }

  /** `int(s)` for a string of digits: its decimal value, most significant digit first. */
  function DigitsValue(s: string): nat
    requires AllDigits(s)
  {
    if |s| == 0 then 0 else 10 * DigitsValue(s[..|s| - 1]) + DigitValue(s[|s| - 1])
  }

  /** `str(n)` for a natural number: the shortest decimal rendering, read back exactly by `int`. */
  function NatToDecimal(n: nat): (s: string)
    ensures IsDigits(s)
    ensures DigitsValue(s) == n
    ensures s[0] == '0' ==> |s| == 1
  {
    if n < 10 then [DigitChar(n)]
    else
      var prefix := NatToDecimal(n / 10);
      var s := prefix + [DigitChar(n % 10)];
      assert s[..|s| - 1] == prefix;
      s
  }

  /** `str(n)` for any integer: a leading '-' for negatives, then the digits of |n|. */
  function IntToDecimal(n: int): (s: string)
    ensures n >= 0 ==> IsDigits(s) && DigitsValue(s) == n
    ensures n < 0 ==> |s| > 1 && s[0] == '-' && IsDigits(s[1..]) && DigitsValue(s[1..]) == -n
    ensures n >= 0 ==> (s[0] == '0' ==> |s| == 1)
    ensures n < 0 ==> s[1] != '0'
  {
    if n < 0 then
      var digits := NatToDecimal(-n);
      assert (['-'] + digits)[1..] == digits;
      ['-'] + digits
    else NatToDecimal(n)
  }

  /** `int(s) > 0` for a digit string exactly when some digit is not '0': "00" is zero, "007" is seven. */
  lemma {:induction false} ValuePositiveIffNonZeroDigit(s: string)
    requires AllDigits(s)
    ensures DigitsValue(s) > 0 <==> HasNonZeroDigit(s)
  {
    if |s| > 0 {
      var p := s[..|s| - 1];
      ValuePositiveIffNonZeroDigit(p);
      if HasNonZeroDigit(p) {
        var i :| 0 <= i < |p| && p[i] != '0';
        assert s[i] != '0';
      }
      if HasNonZeroDigit(s) {
        var i :| 0 <= i < |s| && s[i] != '0';
        if i < |s| - 1 {
          assert p[i] != '0';
        }
      }
    }
  }

  /** Position of the first occurrence of c in s. */
  function IndexOf(s: string, c: char): (i: nat)
    requires c in s
    ensures i < |s| && s[i] == c && c !in s[..i]
  {
    if s[0] == c then 0
    else
      var i := 1 + IndexOf(s[1..], c);
      assert s[..i] == [s[0]] + s[1..][..i - 1];
      i
  }

  /** The first occurrence of c in a + [c] + b, with c not in a, is right after a. */
  lemma IndexOfAfterFreePrefix(a: string, c: char, b: string)
    requires c !in a
    ensures c in a + [c] + b
    ensures IndexOf(a + [c] + b, c) == |a|
  {
    var s := a + [c] + b;
    assert s[|a|] == c;
    assert s[..|a|] == a;
  }

  /** Parts joined back together with sep between neighbours: Python's `sep.join(parts)`. */
  function JoinOn(parts: seq<string>, sep: char): string
    requires |parts| > 0
  {
    if |parts| == 1 then parts[0] else parts[0] + [sep] + JoinOn(parts[1..], sep)
  }

  /**
   `s.split(sep)`: the maximal pieces of s that do not contain sep, one more
   than the number of separators (so never empty), which joined with sep give s back.
   */
  function SplitOn(s: string, sep: char): (parts: seq<string>)
    ensures |parts| == multiset(s)[sep] + 1
    ensures forall k :: 0 <= k < |parts| ==> sep !in parts[k]
    ensures JoinOn(parts, sep) == s
    decreases |s|
  {
    if sep !in s then
      assert multiset(s)[sep] == 0;
      [s]
    else
      var i := IndexOf(s, sep);
      var rest := SplitOn(s[i + 1..], sep);
      assert s == s[..i] + [sep] + s[i + 1..];
      assert multiset(s[..i])[sep] == 0;
      assert multiset(s) == multiset(s[..i]) + multiset{sep} + multiset(s[i + 1..]);
      var parts := [s[..i]] + rest;
      assert parts[1..] == rest;
      parts
  }

  /** Splitting undoes joining, for parts that do not contain the separator. */
  lemma {:induction false} SplitJoinInverse(parts: seq<string>, sep: char)
    requires |parts| > 0
    requires forall k :: 0 <= k < |parts| ==> sep !in parts[k]
    ensures SplitOn(JoinOn(parts, sep), sep) == parts
  {
    if |parts| > 1 {
      var rest := JoinOn(parts[1..], sep);
      var s := parts[0] + [sep] + rest;
      IndexOfAfterFreePrefix(parts[0], sep, rest);
      assert s[..|parts[0]|] == parts[0];
      assert s[|parts[0]| + 1..] == rest;
      SplitJoinInverse(parts[1..], sep);
    }
  }

  /** The text before the first sep of s. */
  function Before(s: string, sep: char): string
    requires sep in s
  {
    s[..IndexOf(s, sep)]
  }

  /** The text after the first sep of s. */
  function After(s: string, sep: char): string
    requires sep in s
  {
    s[IndexOf(s, sep) + 1..]
  }

  /** Splitting at the first sep: the text before it, then the parts of the text after it. */
  lemma SplitOnFirst(s: string, sep: char)
    requires sep in s
    ensures SplitOn(s, sep) == [Before(s, sep)] + SplitOn(After(s, sep), sep)
    ensures multiset(s)[sep] == multiset(After(s, sep))[sep] + 1
  {
    var i := IndexOf(s, sep);
    assert s == s[..i] + [sep] + s[i + 1..];
    assert multiset(s[..i])[sep] == 0;
    assert multiset(s) == multiset(s[..i]) + multiset{sep} + multiset(s[i + 1..]);
  }

  /**
   `s.split(sep)` has exactly two parts when sep occurs exactly once, and then
   the parts are the text before and the text after it.
   */
  lemma SplitInTwo(s: string, sep: char)
    ensures |SplitOn(s, sep)| == 2 <==> multiset(s)[sep] == 1
    ensures multiset(s)[sep] == 1 ==> sep in s && SplitOn(s, sep) == [Before(s, sep), After(s, sep)]
  {
    if multiset(s)[sep] == 1 {
      assert sep in multiset(s);
      SplitOnFirst(s, sep);
      var rest := After(s, sep);
      assert sep !in rest by {
        assert multiset(rest)[sep] == 0;
      }
      assert SplitOn(rest, sep) == [rest];
    }
  }

  /** Splitting name + [sep] + rest when neither side contains sep recovers both sides. */
  lemma SplitOfJoinedPair(a: string, sep: char, b: string)
    requires sep !in a && sep !in b
    ensures multiset(a + [sep] + b)[sep] == 1
    ensures Before(a + [sep] + b, sep) == a && After(a + [sep] + b, sep) == b
  {
    SplitJoinInverse([a, b], sep);
    assert JoinOn([a, b], sep) == a + [sep] + b;
    SplitInTwo(a + [sep] + b, sep);
  }
}

=== FILE: reminder_request.dfy ===
/**
 The `ReminderRequest` model of main.py and its field validators: user id
 (the rule shared with `SOSRequest`), reminder type, reminder text and
 reminder time.

 Times are whole microseconds on one clock, the resolution of Python's
 `datetime`; the moment of validation, `datetime.now()`, is a parameter.
 */
module ReminderRequests {
  import opened Wrappers
  import opened Fields
  import opened Words

  /** `timedelta(minutes=1)` in microseconds. */
  const MicrosPerMinute: nat := 60_000_000

  /** `max_words` of `validate_reminder_text`. */
  const MaxWords: nat := 50

  /** `allowed_types` of `validate_reminder_type`. */
  const ReminderTypes: set<string> := {"Medication", "Daily Tasks", "Doctor Appointments"}

  datatype ReminderRequest = ReminderRequest(userId: int, kind: string, text: string, time: int)

  // ---------------------------------------------------------------- reminder_type

  /** `validate_reminder_type`: the value itself must be one of the allowed types. */
  function ValidateReminderType(v: string): (r: Result<string, Error>)
    ensures r.Success? <==> v == "Medication" || v == "Daily Tasks" || v == "Doctor Appointments"
    ensures r.Success? ==> r.value == v
    ensures r.Failure? ==> r.error == ReminderTypeInvalid
  {
    if v !in ReminderTypes then Failure(ReminderTypeInvalid) else Success(v)
  }

  /** `c.lower()` for ASCII letters; other characters are kept. */
  function LowerChar(c: char): char {
    if 'A' <= c <= 'Z' then (c as int + 32) as char else c
  }

  /** `c.upper()` for ASCII letters; other characters are kept. */
  function UpperChar(c: char): char {
    if 'a' <= c <= 'z' then (c as int - 32) as char else c
  }

  /** An ASCII letter. */
  predicate IsAsciiLetter(c: char) {
    'A' <= c <= 'Z' || 'a' <= c <= 'z'
  }

  /** `c.swapcase()` for ASCII letters; other characters are kept. */
  function SwapCase(c: char): (d: char)
    ensures IsAsciiLetter(c) ==> d != c && IsAsciiLetter(d) && LowerChar(d) == LowerChar(c)
    ensures !IsAsciiLetter(c) ==> d == c
  {
    if 'A' <= c <= 'Z' then LowerChar(c) else UpperChar(c)
  }

  /**
   The comparison is case-sensitive: an allowed type with the case of any one
   of its letters changed is rejected.
   */
  lemma ReminderTypeCaseSensitive(t: string, i: nat)
    requires t in ReminderTypes
    requires i < |t| && IsAsciiLetter(t[i])
    ensures ValidateReminderType(t[..i] + [SwapCase(t[i])] + t[i + 1..]) == Failure(ReminderTypeInvalid)
  {
    var u := t[..i] + [SwapCase(t[i])] + t[i + 1..];
    assert |u| == |t| && u[i] != t[i];
    assert |"Medication"| == 10 && |"Daily Tasks"| == 11 && |"Doctor Appointments"| == 19;
  }

  /** The value is not trimmed: an allowed type with a space before or after it is rejected. */
  lemma ReminderTypeNotTrimmed(t: string)
    requires t in ReminderTypes
    ensures ValidateReminderType(" " + t) == Failure(ReminderTypeInvalid)
    ensures ValidateReminderType(t + " ") == Failure(ReminderTypeInvalid)
  {
    assert (" " + t)[0] == ' ';
    assert (t + " ")[|t|] == ' ';
  }

  // ---------------------------------------------------------------- reminder_text

  /** `validate_reminder_text`: at most `MaxWords` words as `len(v.split())` counts them. */
  function ValidateReminderText(v: string): (r: Result<string, Error>)
    ensures r.Success? <==> RunStarts(v, true) <= MaxWords
    ensures r.Success? ==> r.value == v
    ensures r.Failure? ==> r.error == ReminderTextTooLong(MaxWords)
  {
    WordCountIsRunStarts(v);
    if |Split(v)| > MaxWords then Failure(ReminderTextTooLong(MaxWords)) else Success(v)
  }

  /** Text of only whitespace (or none at all) has no words. */
  lemma {:induction false} BlankHasNoWords(s: string)
    requires forall i :: 0 <= i < |s| ==> IsSpace(s[i])
    ensures Split(s) == []
  {
    if |s| > 0 {
      BlankHasNoWords(s[1..]);
    }
  }

  /** Blank text is accepted. */
  lemma BlankTextAccepted(s: string)
    requires forall i :: 0 <= i < |s| ==> IsSpace(s[i])
    ensures ValidateReminderText(s).Success?
  {
    BlankHasNoWords(s);
    WordCountIsRunStarts(s);
  }

  /** Words joined by single spaces: exactly `MaxWords` of them pass, one more fails. */
  lemma WordLimitIsInclusive(ws: seq<string>)
    requires forall k :: 0 <= k < |ws| ==> IsWord(ws[k])
    ensures ValidateReminderText(JoinSpaced(ws)).Success? <==> |ws| <= MaxWords
    ensures |ws| == MaxWords ==> ValidateReminderText(JoinSpaced(ws)).Success?
    ensures |ws| == MaxWords + 1 ==> ValidateReminderText(JoinSpaced(ws)) == Failure(ReminderTextTooLong(MaxWords))
  {
    SplitJoinSpaced(ws);
    WordCountIsRunStarts(JoinSpaced(ws));
  }

  // ---------------------------------------------------------------- reminder_time

  /**
   `validate_reminder_time`: not after now is "in the future"; after now but
   not after now plus one minute is "at least 1 minute ahead".
   */
  function ValidateReminderTime(v: int, now: int): (r: Result<int, Error>)
    ensures r.Success? <==> v - now > MicrosPerMinute
    ensures r.Success? ==> r.value == v
    ensures r == Failure(ReminderTimeNotFuture) <==> v - now <= 0
    ensures r == Failure(ReminderTimeTooSoon) <==> 0 < v - now <= MicrosPerMinute
  {
    if v <= now then Failure(ReminderTimeNotFuture)
    else if v <= now + MicrosPerMinute then Failure(ReminderTimeTooSoon)
    else Success(v)
  }

  /**
   The "in the future" check rejects nothing the "1 minute ahead" check would
   accept: every time it rejects is rejected by the second check as well.
   */
  lemma FutureCheckSubsumed(v: int, now: int)
    ensures ValidateReminderTime(v, now) == Failure(ReminderTimeNotFuture) ==> v <= now + MicrosPerMinute
    ensures ValidateReminderTime(v, now).Failure? <==> v <= now + MicrosPerMinute
  {
  }

  /** Only the distance from now matters: shifting both by the same amount keeps the verdict. */
  lemma TimeVerdictShiftInvariant(v: int, now: int, d: int)
    ensures ValidateReminderTime(v + d, now + d) == (match ValidateReminderTime(v, now)
      case Success(_) => Success(v + d)
      case Failure(e) => Failure(e))
  {
  }

  /** A later time is accepted whenever an earlier one is. */
  lemma TimeAcceptanceMonotone(v: int, w: int, now: int)
    requires v <= w
    requires ValidateReminderTime(v, now).Success?
    ensures ValidateReminderTime(w, now).Success?
  {
  }

  // ---------------------------------------------------------------- the request

  /** Everything the `ReminderRequest` validators demand of a request. */
  predicate ValidReminderRequest(raw: ReminderRequest, now: int) {
    && raw.userId > 0
    && raw.kind in ReminderTypes
    && |Split(raw.text)| <= MaxWords
    && raw.time - now > MicrosPerMinute
  }

  /** Position of a field in the declaration order of `ReminderRequest`. */
  function ReminderFieldRank(loc: seq<Field>): nat
  {
    if |loc| == 0 then 0
    else
      match loc[0]
      case UserIdField => 0
      case TypeField => 1
      case TextField => 2
      case _ => 3
  }

  /** The errors of the validated fields of `ReminderRequest`, in declaration order. */
  function ReminderErrors(raw: ReminderRequest, now: int): seq<FieldError>
  {
    ErrorsAt([UserIdField], ValidateUserId(raw.userId))
    + ErrorsAt([TypeField], ValidateReminderType(raw.kind))
    + ErrorsAt([TextField], ValidateReminderText(raw.text))
    + ErrorsAt([TimeField], ValidateReminderTime(raw.time, now))
  }

  /** The pieces of `ReminderErrors`, each a single field's at most one error. */
  lemma ReminderPieces(raw: ReminderRequest, now: int)
    ensures ReminderErrors(raw, now) ==
      ErrorsAt([UserIdField], ValidateUserId(raw.userId))
      + ErrorsAt([TypeField], ValidateReminderType(raw.kind))
      + ErrorsAt([TextField], ValidateReminderText(raw.text))
      + ErrorsAt([TimeField], ValidateReminderTime(raw.time, now))
    ensures AtMostOneAt(ErrorsAt([UserIdField], ValidateUserId(raw.userId)), UserIdField)
    ensures AtMostOneAt(ErrorsAt([TypeField], ValidateReminderType(raw.kind)), TypeField)
    ensures AtMostOneAt(ErrorsAt([TextField], ValidateReminderText(raw.text)), TextField)
    ensures AtMostOneAt(ErrorsAt([TimeField], ValidateReminderTime(raw.time, now)), TimeField)
  {
    ErrorsAtOne(UserIdField, ValidateUserId(raw.userId));
    ErrorsAtOne(TypeField, ValidateReminderType(raw.kind));
    ErrorsAtOne(TextField, ValidateReminderText(raw.text));
    ErrorsAtOne(TimeField, ValidateReminderTime(raw.time, now));
  }

  /** The user_id error of a `ReminderRequest` is reported exactly when the id is not positive. */
  lemma ReminderUserIdError(raw: ReminderRequest, now: int)
    ensures FieldError([UserIdField], UserIdNotPositive) in ReminderErrors(raw, now) <==> raw.userId <= 0
  {
    ReminderPieces(raw, now);
    var x := FieldError([UserIdField], UserIdNotPositive);
    NotAtOtherField(ErrorsAt([TypeField], ValidateReminderType(raw.kind)), TypeField, x);
    NotAtOtherField(ErrorsAt([TextField], ValidateReminderText(raw.text)), TextField, x);
    NotAtOtherField(ErrorsAt([TimeField], ValidateReminderTime(raw.time, now)), TimeField, x);
  }

  /** The reminder_type error is reported exactly when the type is not an allowed one. */
  lemma ReminderTypeError(raw: ReminderRequest, now: int)
    ensures FieldError([TypeField], ReminderTypeInvalid) in ReminderErrors(raw, now) <==> raw.kind !in ReminderTypes
  {
    ReminderPieces(raw, now);
    var x := FieldError([TypeField], ReminderTypeInvalid);
    NotAtOtherField(ErrorsAt([UserIdField], ValidateUserId(raw.userId)), UserIdField, x);
    NotAtOtherField(ErrorsAt([TextField], ValidateReminderText(raw.text)), TextField, x);
    NotAtOtherField(ErrorsAt([TimeField], ValidateReminderTime(raw.time, now)), TimeField, x);
  }

  /** The reminder_text error is reported exactly when the text has more than `MaxWords` words. */
  lemma ReminderTextError(raw: ReminderRequest, now: int)
    ensures FieldError([TextField], ReminderTextTooLong(MaxWords)) in ReminderErrors(raw, now)
        <==> |Split(raw.text)| > MaxWords
  {
    ReminderPieces(raw, now);
    WordCountIsRunStarts(raw.text);
    var x := FieldError([TextField], ReminderTextTooLong(MaxWords));
    NotAtOtherField(ErrorsAt([UserIdField], ValidateUserId(raw.userId)), UserIdField, x);
    NotAtOtherField(ErrorsAt([TypeField], ValidateReminderType(raw.kind)), TypeField, x);
    NotAtOtherField(ErrorsAt([TimeField], ValidateReminderTime(raw.time, now)), TimeField, x);
  }

  /** The reminder_time error is the "in the future" one up to now and the "1 minute ahead" one in the minute after. */
  lemma ReminderTimeError(raw: ReminderRequest, now: int)
    ensures FieldError([TimeField], ReminderTimeNotFuture) in ReminderErrors(raw, now) <==> raw.time <= now
    ensures FieldError([TimeField], ReminderTimeTooSoon) in ReminderErrors(raw, now)
        <==> now < raw.time <= now + MicrosPerMinute
  {
    ReminderPieces(raw, now);
    var x := FieldError([TimeField], ReminderTimeNotFuture);
    var y := FieldError([TimeField], ReminderTimeTooSoon);
    NotAtOtherField(ErrorsAt([UserIdField], ValidateUserId(raw.userId)), UserIdField, x);
    NotAtOtherField(ErrorsAt([TypeField], ValidateReminderType(raw.kind)), TypeField, x);
    NotAtOtherField(ErrorsAt([TextField], ValidateReminderText(raw.text)), TextField, x);
    NotAtOtherField(ErrorsAt([UserIdField], ValidateUserId(raw.userId)), UserIdField, y);
    NotAtOtherField(ErrorsAt([TypeField], ValidateReminderType(raw.kind)), TypeField, y);
    NotAtOtherField(ErrorsAt([TextField], ValidateReminderText(raw.text)), TextField, y);
  }

  /**
   A `ReminderRequest` reports only the failing fields' own errors: the fixed
   message of user_id, reminder_type or reminder_text, or one of the two
   messages of reminder_time.
   */
  lemma ReminderErrorsOnlyFailing(raw: ReminderRequest, now: int)
    ensures forall e :: e in ReminderErrors(raw, now) ==>
      || e == FieldError([UserIdField], UserIdNotPositive)
      || e == FieldError([TypeField], ReminderTypeInvalid)
      || e == FieldError([TextField], ReminderTextTooLong(MaxWords))
      || e == FieldError([TimeField], ReminderTimeNotFuture)
      || e == FieldError([TimeField], ReminderTimeTooSoon)
  {
    ReminderPieces(raw, now);
    var byTime := ErrorsAt([TimeField], ValidateReminderTime(raw.time, now));
    assert byTime == [] || byTime == [FieldError([TimeField], ReminderTimeNotFuture)]
        || byTime == [FieldError([TimeField], ReminderTimeTooSoon)];
    OnlyListed(
      ErrorsAt([UserIdField], ValidateUserId(raw.userId)),
      ErrorsAt([TypeField], ValidateReminderType(raw.kind)),
      ErrorsAt([TextField], ValidateReminderText(raw.text)),
      byTime,
      FieldError([UserIdField], UserIdNotPositive), FieldError([TypeField], ReminderTypeInvalid),
      FieldError([TextField], ReminderTextTooLong(MaxWords)));
  }

  /** A `ReminderRequest` reports no error exactly when it meets every rule. */
  lemma ReminderErrorsEmptyIffValid(raw: ReminderRequest, now: int)
    ensures |ReminderErrors(raw, now)| == 0 <==> ValidReminderRequest(raw, now)
  {
    WordCountIsRunStarts(raw.text);
  }

  /** The four fields' pieces, each at most one error at its field, put together in declaration order. */
  lemma ReminderPiecesInFieldOrder(byUser: seq<FieldError>, byType: seq<FieldError>, byText: seq<FieldError>, byTime: seq<FieldError>)
    requires AtMostOneAt(byUser, UserIdField) && AtMostOneAt(byType, TypeField)
    requires AtMostOneAt(byText, TextField) && AtMostOneAt(byTime, TimeField)
    ensures InFieldOrder(byUser + byType + byText + byTime, ReminderFieldRank)
  {
    AppendInFieldOrder([], byUser, ReminderFieldRank, 0);
    AppendInFieldOrder(byUser, byType, ReminderFieldRank, 1);
    AppendInFieldOrder(byUser + byType, byText, ReminderFieldRank, 2);
    AppendInFieldOrder(byUser + byType + byText, byTime, ReminderFieldRank, 3);
  }

  /** The field errors of a `ReminderRequest` come in declaration order, at most one per field. */
  lemma ReminderErrorsInFieldOrder(raw: ReminderRequest, now: int)
    ensures InFieldOrder(ReminderErrors(raw, now), ReminderFieldRank)
  {
    ReminderPieces(raw, now);
    ReminderPiecesInFieldOrder(
      ErrorsAt([UserIdField], ValidateUserId(raw.userId)),
      ErrorsAt([TypeField], ValidateReminderType(raw.kind)),
      ErrorsAt([TextField], ValidateReminderText(raw.text)),
      ErrorsAt([TimeField], ValidateReminderTime(raw.time, now)));
  }

  /**
   Validating a `ReminderRequest`: each validated field in declaration order,
   collecting one error per failing field; the request itself when nothing failed.
   */
  function ValidateReminderRequest(raw: ReminderRequest, now: int): (r: Result<ReminderRequest, seq<FieldError>>)
    ensures r.Success? <==> ValidReminderRequest(raw, now)
    ensures r.Success? ==> r.value == raw
    ensures r.Failure? ==> |r.error| > 0
    ensures FieldError([UserIdField], UserIdNotPositive) in Errors(r) <==> raw.userId <= 0
    ensures FieldError([TypeField], ReminderTypeInvalid) in Errors(r) <==> raw.kind !in ReminderTypes
    ensures FieldError([TextField], ReminderTextTooLong(MaxWords)) in Errors(r) <==> |Split(raw.text)| > MaxWords
    ensures FieldError([TimeField], ReminderTimeNotFuture) in Errors(r) <==> raw.time <= now
    ensures FieldError([TimeField], ReminderTimeTooSoon) in Errors(r) <==> now < raw.time <= now + MicrosPerMinute
    ensures forall e :: e in Errors(r) ==>
      || e == FieldError([UserIdField], UserIdNotPositive)
      || e == FieldError([TypeField], ReminderTypeInvalid)
      || e == FieldError([TextField], ReminderTextTooLong(MaxWords))
      || e == FieldError([TimeField], ReminderTimeNotFuture)
      || e == FieldError([TimeField], ReminderTimeTooSoon)
    ensures InFieldOrder(Errors(r), ReminderFieldRank)
  {
    ReminderErrorsOnlyFailing(raw, now);
    ReminderUserIdError(raw, now);
    ReminderTypeError(raw, now);
    ReminderTextError(raw, now);
    ReminderTimeError(raw, now);
    ReminderErrorsEmptyIffValid(raw, now);
    ReminderErrorsInFieldOrder(raw, now);
    var errs := ReminderErrors(raw, now);
    if |errs| == 0 then Success(raw) else Failure(errs)
  }
}

=== FILE: reminders.dfy ===
/**
 The stored `Reminder` record of main.py and `postpone_reminder`. The stored
 time is the ISO-8601 text of a `datetime`; here it is the instant it names,
 in whole microseconds, and the text round trip
 `datetime.fromisoformat(t.isoformat()) == t` is taken as given.
 */
module Reminders {
  import ReminderRequests

  datatype Reminder = Reminder(id: int, userId: int, kind: string, text: string, time: int)

  /**
   `postpone_reminder`: the time moves by `minutes` whole minutes (backwards
   when negative, as `timedelta` allows); nothing else changes.
   */
  function Postpone(r: Reminder, minutes: int): (p: Reminder)
    ensures p.time - r.time == minutes * ReminderRequests.MicrosPerMinute
    ensures p.(time := r.time) == r
  {
    r.(time := r.time + minutes * ReminderRequests.MicrosPerMinute)
  }

  /** Postponing twice is postponing once by the sum. */
  lemma PostponeCompose(r: Reminder, a: int, b: int)
    ensures Postpone(Postpone(r, a), b) == Postpone(r, a + b)
  {
  }

  /** Postponing by zero minutes changes nothing. */
  lemma PostponeZero(r: Reminder)
    ensures Postpone(r, 0) == r
  {
  }

  /** Postponing by -m undoes postponing by m. */
  lemma PostponeInverse(r: Reminder, m: int)
    ensures Postpone(Postpone(r, m), -m) == r
  {
    PostponeCompose(r, m, -m);
    PostponeZero(r);
  }

  /** Postponing is injective: different reminders stay different, different delays give different results. */
  lemma PostponeInjective(r: Reminder, s: Reminder, m: int, n: int)
    ensures Postpone(r, m) == Postpone(s, m) ==> r == s
    ensures Postpone(r, m) == Postpone(r, n) ==> m == n
  {
    if Postpone(r, m) == Postpone(s, m) {
      PostponeInverse(r, m);
      PostponeInverse(s, m);
    }
  }

  /** Postponing keeps the order of two reminders' times, and a later delay gives a later time. */
  lemma PostponeMonotone(r: Reminder, s: Reminder, m: int, n: int)
    ensures r.time <= s.time ==> Postpone(r, m).time <= Postpone(s, m).time
    ensures m <= n ==> Postpone(r, m).time <= Postpone(r, n).time
  {
  }

  /**
   A time the reminder validator accepted is still acceptable against the same
   moment after postponing by a non-negative number of minutes.
   */
  lemma PostponeKeepsTimeValid(r: Reminder, minutes: nat, now: int)
    requires ReminderRequests.ValidateReminderTime(r.time, now).Success?
    ensures ReminderRequests.ValidateReminderTime(Postpone(r, minutes).time, now).Success?
  {
    ReminderRequests.TimeAcceptanceMonotone(r.time, Postpone(r, minutes).time, now);
  }
}

=== FILE: service.dfy ===
/**
 The two create routes of main.py, without the web framework and the
 database: a request body that fails validation is answered with its field
 errors and nothing is stored or sent; a valid one becomes a stored record
 (its `id` the one the database assigns, a parameter here), and an SOS
 alert is then sent to its contacts.
 */
module Service {
  import opened Wrappers
  import opened PyText
  import opened Fields
  import opened Vitals
  import opened SosRequests
  import opened ReminderRequests
  import opened Reminders
  import opened Dispatch

  /** The stored `SOSAlert` record. */
  datatype SosAlert = SosAlert(
    id: int,
    userId: int,
    buttonPressed: bool,
    contacts: seq<string>,
    gps: string,
    vitals: VitalInfo)

  /** The message `send_sos_alert` builds for a stored alert; `renderFloat` is Python's `str` of a float. */
  function AlertMessage(alert: SosAlert, renderFloat: real -> string): string
  {
    SosMessage(alert.userId, alert.gps, renderFloat(alert.vitals.spo2), alert.vitals.bloodPressure, alert.vitals.pulse)
  }

  /** Every contact of a valid request is sent to, in order, at the phone after its ':'. */
  lemma ValidContactsAllSent(contacts: seq<string>, body: string, sent: nat -> bool)
    requires forall k :: 0 <= k < |contacts| ==> WellFormedContact(contacts[k])
    ensures var rep := SendAll(contacts, body, sent);
      && !rep.aborted
      && |rep.attempts| == |contacts|
      && forall j :: 0 <= j < |contacts| ==>
           rep.attempts[j] == Attempt(contacts[j], body) && Recipient(contacts[j]) == After(contacts[j], ':')
  {
    OneSendPerContact(contacts, body, sent);
  }

  /**
   `create_sos_alert`: validate the body, store the alert, then send it.
   An invalid body yields its field errors; a valid one the stored alert and
   the sends, one per contact at its phone, none ending the loop early.
   */
  function CreateSosAlert(raw: SosRequest, id: int, parseFloat: string -> Option<real>,
                          renderFloat: real -> string, sent: nat -> bool): (r: Result<(SosAlert, Report), seq<FieldError>>)
    ensures r.Success? <==> ValidSosRequest(raw, parseFloat)
    ensures r.Failure? ==> r.error == Errors(ValidateSosRequest(raw, parseFloat)) && |r.error| > 0
    ensures r.Success? ==>
      && r.value.0 == SosAlert(id, raw.userId, raw.buttonPressed, raw.contacts, raw.gps, raw.vitals)
      && !r.value.1.aborted
      && |r.value.1.attempts| == |r.value.1.log| == |raw.contacts|
      && forall j :: 0 <= j < |raw.contacts| ==>
           && r.value.1.attempts[j] == Attempt(raw.contacts[j], AlertMessage(r.value.0, renderFloat))
           && Recipient(raw.contacts[j]) == After(raw.contacts[j], ':')
  {
    match ValidateSosRequest(raw, parseFloat)
    case Failure(errs) => Failure(errs)
    case Success(sos) =>
      var alert := SosAlert(id, sos.userId, sos.buttonPressed, sos.contacts, sos.gps, sos.vitals);
      var body := AlertMessage(alert, renderFloat);
      ValidContactsAllSent(alert.contacts, body, sent);
      Success((alert, SendAll(alert.contacts, body, sent)))
  }

  /**
   `create_reminder`: validate the body against the moment `now`, then store
   the reminder. A stored reminder is due more than a minute after `now`.
   */
  function CreateReminder(raw: ReminderRequest, id: int, now: int): (r: Result<Reminder, seq<FieldError>>)
    ensures r.Success? <==> ValidReminderRequest(raw, now)
    ensures r.Failure? ==> r.error == Errors(ValidateReminderRequest(raw, now)) && |r.error| > 0
    ensures r.Success? ==> r.value == Reminder(id, raw.userId, raw.kind, raw.text, raw.time)
    ensures r.Success? ==> r.value.time > now + MicrosPerMinute && r.value.kind in ReminderTypes
  {
    match ValidateReminderRequest(raw, now)
    case Failure(errs) => Failure(errs)
    case Success(req) => Success(Reminder(id, req.userId, req.kind, req.text, req.time))
  }

  /** The user_id rule is the same in both request models: the same id is rejected by both or by neither. */
  lemma UserIdRuleShared(sos: SosRequest, parseFloat: string -> Option<real>, rem: ReminderRequest, now: int)
    requires sos.userId == rem.userId
    ensures FieldError([UserIdField], UserIdNotPositive) in Errors(ValidateSosRequest(sos, parseFloat))
        <==> FieldError([UserIdField], UserIdNotPositive) in Errors(ValidateReminderRequest(rem, now))
  {
  }

  /** A stored reminder postponed by any non-negative number of minutes is still due more than a minute after `now`. */
  lemma PostponedReminderStillAhead(raw: ReminderRequest, id: int, now: int, minutes: nat)
    requires CreateReminder(raw, id, now).Success?
    ensures ValidateReminderTime(Postpone(CreateReminder(raw, id, now).value, minutes).time, now).Success?
  {
    PostponeKeepsTimeValid(CreateReminder(raw, id, now).value, minutes, now);
  }
}

=== FILE: sos_request.dfy ===
/**
 The `SOSRequest` model of main.py and its field validators: GPS location,
 emergency contacts and user id, plus the nested `VitalInfo`.
 */
module SosRequests {
  import opened Wrappers
  import opened PyText
  import opened Fields
  import opened Vitals

  datatype SosRequest = SosRequest(
    userId: int,
    buttonPressed: bool,
    contacts: seq<string>,
    gps: string,
    vitals: VitalInfo)

  // ---------------------------------------------------------------- GPS

  /** Latitude within [-90, 90] and longitude within [-180, 180], bounds included. */
  predicate InRange(lat: real, lon: real) {
    -90.0 <= lat <= 90.0 && -180.0 <= lon <= 180.0
  }

  /**
   `lat, lon = map(float, v.split(","))`: exactly one comma and both sides
   parse. `parseFloat` stands for Python's `float` on one piece (None where it
   raises); a float that parses to NaN or an infinity fails the range check
   below in the same way as None, so such values need no case of their own.
   */
  function Coordinates(v: string, parseFloat: string -> Option<real>): Option<(real, real)>
  {
    var parts := SplitOn(v, ',');
    if |parts| != 2 then None
    else
      match (parseFloat(parts[0]), parseFloat(parts[1]))
      case (Some(lat), Some(lon)) => Some((lat, lon))
      case _ => None
  }

  /** A location the validator accepts: "lat,lon" with both parts parsing to in-range numbers. */
  predicate WellFormedGps(v: string, parseFloat: string -> Option<real>) {
    && ',' in v && multiset(v)[','] == 1
    && parseFloat(Before(v, ',')).Some?
    && parseFloat(After(v, ',')).Some?
    && InRange(parseFloat(Before(v, ',')).value, parseFloat(After(v, ',')).value)
  }

  /**
   `validate_gps_location`: the unpacking, the parse and the range check all
   raise inside one `try`, and every failure is re-raised as the one
   "Invalid GPS coordinates format" error.
   */
  function ValidateGps(v: string, parseFloat: string -> Option<real>): (r: Result<string, Error>)
    ensures r.Success? <==> WellFormedGps(v, parseFloat)
    ensures r.Success? ==> r.value == v
    ensures r.Failure? ==> r.error == GpsFormat
  {
    SplitInTwo(v, ',');
    match Coordinates(v, parseFloat)
    case Some((lat, lon)) =>
      if !InRange(lat, lon) then Failure(GpsFormat) else Success(v)
    case None => Failure(GpsFormat)
  }

  /**
   A location written as `lat + "," + lon`, with comma-free sides that parse,
   is accepted exactly when the parsed pair is in range.
   */
  lemma GpsOfParts(lat: string, lon: string, parseFloat: string -> Option<real>)
    requires ',' !in lat && ',' !in lon
    requires parseFloat(lat).Some? && parseFloat(lon).Some?
    ensures ValidateGps(lat + "," + lon, parseFloat).Success?
        <==> InRange(parseFloat(lat).value, parseFloat(lon).value)
  {
    SplitOfJoinedPair(lat, ',', lon);
  }

  /** A location with no comma, or more than one, is rejected whatever the parser says. */
  lemma GpsNeedsOneComma(v: string, parseFloat: string -> Option<real>)
    requires multiset(v)[','] != 1
    ensures ValidateGps(v, parseFloat) == Failure(GpsFormat)
  {
  }

  // ---------------------------------------------------------------- contacts

  /**
   A contact the validator accepts: exactly one ':' and a non-empty digit
   string after it; the name before it may be empty.
   */
  predicate WellFormedContact(c: string) {
    ':' in c && multiset(c)[':'] == 1 && IsDigits(After(c, ':'))
  }

  /** `validate_emergency_contacts` on one entry: `parts = contact.split(":")`, two parts, digits after. */
  function ValidateContact(c: string): (r: Result<string, Error>)
    ensures r.Success? <==> WellFormedContact(c)
    ensures r.Success? ==> r.value == c
    ensures r.Failure? ==> r.error == ContactFormat
  {
    SplitInTwo(c, ':');
    var parts := SplitOn(c, ':');
    if |parts| != 2 || !IsDigits(parts[1]) then Failure(ContactFormat) else Success(c)
  }

  /**
   `validate_emergency_contacts`: entries are checked in order and the first
   bad one rejects the whole list; the empty list is accepted.
   */
  function ValidateContacts(v: seq<string>): (r: Result<seq<string>, Error>)
    ensures r.Success? <==> forall k :: 0 <= k < |v| ==> WellFormedContact(v[k])
    ensures r.Success? ==> r.value == v
    ensures r.Failure? ==> r.error == ContactFormat
  {
    if |v| == 0 then Success(v)
    else
      assert forall k :: 1 <= k < |v| ==> v[k] == v[1..][k - 1];
      match ValidateContact(v[0])
      case Failure(e) => Failure(e)
      case Success(_) =>
        match ValidateContacts(v[1..])
        case Failure(e) => Failure(e)
        case Success(_) => Success(v)
  }

  /** `name + ":" + phone` is accepted exactly when the phone is a digit string and neither side has a ':'. */
  lemma ContactOfParts(name: string, phone: string)
    requires ':' !in name && ':' !in phone
    ensures ValidateContact(name + ":" + phone).Success? <==> IsDigits(phone)
    ensures After(name + ":" + phone, ':') == phone
  {
    SplitOfJoinedPair(name, ':', phone);
  }

  /** One bad entry anywhere rejects a list, however many good entries surround it. */
  lemma OneBadContactRejects(before: seq<string>, bad: string, after: seq<string>)
    requires !WellFormedContact(bad)
    ensures ValidateContacts(before + [bad] + after) == Failure(ContactFormat)
  {
    assert (before + [bad] + after)[|before|] == bad;
  }

  // ---------------------------------------------------------------- the request

  /** Everything the `SOSRequest` validators demand of a request. */
  predicate ValidSosRequest(raw: SosRequest, parseFloat: string -> Option<real>) {
    && raw.userId > 0
    && (forall k :: 0 <= k < |raw.contacts| ==> WellFormedContact(raw.contacts[k]))
    && WellFormedGps(raw.gps, parseFloat)
    && WellFormedBloodPressure(raw.vitals.bloodPressure)
  }

  /** Position of a field in the declaration order of `SOSRequest` (vital_info's inner fields share its place). */
  function SosFieldRank(loc: seq<Field>): nat
  {
    if |loc| == 0 then 0
    else
      match loc[0]
      case UserIdField => 0
      case ButtonField => 1
      case ContactsField => 2
      case GpsField => 3
      case _ => 4
  }

  /** The errors of the validated fields of `SOSRequest`, in declaration order. */
  function SosErrors(raw: SosRequest, parseFloat: string -> Option<real>): seq<FieldError>
  {
    ErrorsAt([UserIdField], ValidateUserId(raw.userId))
    + ErrorsAt([ContactsField], ValidateContacts(raw.contacts))
    + ErrorsAt([GpsField], ValidateGps(raw.gps, parseFloat))
    + Nest(VitalsField, Errors(ValidateVitalInfo(raw.vitals)))
  }

  /** The pieces of `SosErrors`, each a single field's at most one error. */
  lemma SosPieces(raw: SosRequest, parseFloat: string -> Option<real>)
    returns (byUser: seq<FieldError>, byContacts: seq<FieldError>, byGps: seq<FieldError>, byVitals: seq<FieldError>)
    ensures byUser == ErrorsAt([UserIdField], ValidateUserId(raw.userId))
    ensures byContacts == ErrorsAt([ContactsField], ValidateContacts(raw.contacts))
    ensures byGps == ErrorsAt([GpsField], ValidateGps(raw.gps, parseFloat))
    ensures byVitals == Nest(VitalsField, Errors(ValidateVitalInfo(raw.vitals)))
    ensures SosErrors(raw, parseFloat) == byUser + byContacts + byGps + byVitals
    ensures AtMostOneAt(byUser, UserIdField) && AtMostOneAt(byContacts, ContactsField)
    ensures AtMostOneAt(byGps, GpsField) && AtMostOneAt(byVitals, VitalsField)
  {
    byUser := ErrorsAt([UserIdField], ValidateUserId(raw.userId));
    byContacts := ErrorsAt([ContactsField], ValidateContacts(raw.contacts));
    byGps := ErrorsAt([GpsField], ValidateGps(raw.gps, parseFloat));
    byVitals := Nest(VitalsField, Errors(ValidateVitalInfo(raw.vitals)));
    ErrorsAtOne(UserIdField, ValidateUserId(raw.userId));
    ErrorsAtOne(ContactsField, ValidateContacts(raw.contacts));
    ErrorsAtOne(GpsField, ValidateGps(raw.gps, parseFloat));
    NestOne(VitalsField, ValidateVitalInfo(raw.vitals));
  }

  /** The user_id error of an `SOSRequest` is reported exactly when the id is not positive. */
  lemma SosUserIdError(raw: SosRequest, parseFloat: string -> Option<real>)
    ensures FieldError([UserIdField], UserIdNotPositive) in SosErrors(raw, parseFloat) <==> raw.userId <= 0
  {
    var byUser, byContacts, byGps, byVitals := SosPieces(raw, parseFloat);
    var x := FieldError([UserIdField], UserIdNotPositive);
    NotAtOtherField(byContacts, ContactsField, x);
    NotAtOtherField(byGps, GpsField, x);
    NotAtOtherField(byVitals, VitalsField, x);
  }

  /** The emergency_contacts error of an `SOSRequest` is reported exactly when some contact is malformed. */
  lemma SosContactsError(raw: SosRequest, parseFloat: string -> Option<real>)
    ensures FieldError([ContactsField], ContactFormat) in SosErrors(raw, parseFloat)
        <==> !(forall k :: 0 <= k < |raw.contacts| ==> WellFormedContact(raw.contacts[k]))
  {
    var byUser, byContacts, byGps, byVitals := SosPieces(raw, parseFloat);
    var x := FieldError([ContactsField], ContactFormat);
    NotAtOtherField(byUser, UserIdField, x);
    NotAtOtherField(byGps, GpsField, x);
    NotAtOtherField(byVitals, VitalsField, x);
  }

  /** The gps_location error of an `SOSRequest` is reported exactly when the location is rejected. */
  lemma SosGpsError(raw: SosRequest, parseFloat: string -> Option<real>)
    ensures FieldError([GpsField], GpsFormat) in SosErrors(raw, parseFloat) <==> !WellFormedGps(raw.gps, parseFloat)
  {
    var byUser, byContacts, byGps, byVitals := SosPieces(raw, parseFloat);
    var x := FieldError([GpsField], GpsFormat);
    NotAtOtherField(byUser, UserIdField, x);
    NotAtOtherField(byContacts, ContactsField, x);
    NotAtOtherField(byVitals, VitalsField, x);
  }

  /** The errors of the three top-level validated fields hold nothing located under vital_info. */
  lemma NoVitalsErrorBefore(byUser: seq<FieldError>, byContacts: seq<FieldError>, byGps: seq<FieldError>, loc: seq<Field>)
    requires AtMostOneAt(byUser, UserIdField) && AtMostOneAt(byContacts, ContactsField) && AtMostOneAt(byGps, GpsField)
    requires |loc| > 0 && loc[0] == VitalsField
    ensures !HasErrorAt(byUser + byContacts + byGps, loc)
  {
    var x := FieldError(loc, BloodPressureFormat);
    NotAtOtherField(byUser, UserIdField, x);
    NotAtOtherField(byContacts, ContactsField, x);
    NotAtOtherField(byGps, GpsField, x);
    HasErrorAtConcat(byUser, byContacts, loc);
    HasErrorAtConcat(byUser + byContacts, byGps, loc);
  }

  /** An error at vital_info.blood_pressure is reported exactly when the reading is rejected. */
  lemma SosVitalsError(raw: SosRequest, parseFloat: string -> Option<real>)
    ensures HasErrorAt(SosErrors(raw, parseFloat), [VitalsField, BloodPressureField])
        <==> !WellFormedBloodPressure(raw.vitals.bloodPressure)
  {
    var byUser, byContacts, byGps, byVitals := SosPieces(raw, parseFloat);
    var loc := [VitalsField, BloodPressureField];
    NoVitalsErrorBefore(byUser, byContacts, byGps, loc);
    VitalsErrorAt(raw.vitals);
    HasErrorAtConcat(byUser + byContacts + byGps, byVitals, loc);
  }

  /**
   An `SOSRequest` reports only the failing fields' own errors: the fixed
   message of user_id, emergency_contacts or gps_location, or the
   blood-pressure validator's error at vital_info.blood_pressure, and the
   latter exactly when the reading is rejected.
   */
  lemma SosErrorsOnlyFailing(raw: SosRequest, parseFloat: string -> Option<real>)
    ensures forall e :: e in SosErrors(raw, parseFloat) ==>
      || e == FieldError([UserIdField], UserIdNotPositive)
      || e == FieldError([ContactsField], ContactFormat)
      || e == FieldError([GpsField], GpsFormat)
      || (ValidateBloodPressure(raw.vitals.bloodPressure).Failure?
          && e == FieldError([VitalsField, BloodPressureField], ValidateBloodPressure(raw.vitals.bloodPressure).error))
    ensures (ValidateBloodPressure(raw.vitals.bloodPressure).Failure?
             && FieldError([VitalsField, BloodPressureField], ValidateBloodPressure(raw.vitals.bloodPressure).error)
                in SosErrors(raw, parseFloat))
        <==> !WellFormedBloodPressure(raw.vitals.bloodPressure)
  {
    var byUser, byContacts, byGps, byVitals := SosPieces(raw, parseFloat);
    assert byUser == [] || byUser == [FieldError([UserIdField], UserIdNotPositive)];
    assert byContacts == [] || byContacts == [FieldError([ContactsField], ContactFormat)];
    assert byGps == [] || byGps == [FieldError([GpsField], GpsFormat)];
    VitalsNestedErrors(raw.vitals);
    OnlyListed(byUser, byContacts, byGps, byVitals,
      FieldError([UserIdField], UserIdNotPositive), FieldError([ContactsField], ContactFormat), FieldError([GpsField], GpsFormat));
  }

  /** An `SOSRequest` reports no error exactly when it meets every rule. */
  lemma SosErrorsEmptyIffValid(raw: SosRequest, parseFloat: string -> Option<real>)
    ensures |SosErrors(raw, parseFloat)| == 0 <==> ValidSosRequest(raw, parseFloat)
  {
  }

  /** The four fields' pieces, each at most one error at its field, put together in declaration order. */
  lemma SosPiecesInFieldOrder(byUser: seq<FieldError>, byContacts: seq<FieldError>, byGps: seq<FieldError>, byVitals: seq<FieldError>)
    requires AtMostOneAt(byUser, UserIdField) && AtMostOneAt(byContacts, ContactsField)
    requires AtMostOneAt(byGps, GpsField) && AtMostOneAt(byVitals, VitalsField)
    ensures InFieldOrder(byUser + byContacts + byGps + byVitals, SosFieldRank)
  {
    AppendInFieldOrder([], byUser, SosFieldRank, 0);
    assert RankedBefore(byUser, SosFieldRank, 2);
    AppendInFieldOrder(byUser, byContacts, SosFieldRank, 2);
    AppendInFieldOrder(byUser + byContacts, byGps, SosFieldRank, 3);
    AppendInFieldOrder(byUser + byContacts + byGps, byVitals, SosFieldRank, 4);
  }

  /** The field errors of an `SOSRequest` come in declaration order, at most one per field. */
  lemma SosErrorsInFieldOrder(raw: SosRequest, parseFloat: string -> Option<real>)
    ensures InFieldOrder(SosErrors(raw, parseFloat), SosFieldRank)
  {
    var byUser, byContacts, byGps, byVitals := SosPieces(raw, parseFloat);
    SosPiecesInFieldOrder(byUser, byContacts, byGps, byVitals);
  }

  /**
   Validating an `SOSRequest`: each validated field in declaration order,
   collecting one error per failing field, the nested vital_info's under its
   name; the request itself when nothing failed.
   */
  function ValidateSosRequest(raw: SosRequest, parseFloat: string -> Option<real>): (r: Result<SosRequest, seq<FieldError>>)
    ensures r.Success? <==> ValidSosRequest(raw, parseFloat)
    ensures r.Success? ==> r.value == raw
    ensures r.Failure? ==> |r.error| > 0
    ensures FieldError([UserIdField], UserIdNotPositive) in Errors(r) <==> raw.userId <= 0
    ensures FieldError([ContactsField], ContactFormat) in Errors(r)
        <==> !(forall k :: 0 <= k < |raw.contacts| ==> WellFormedContact(raw.contacts[k]))
    ensures FieldError([GpsField], GpsFormat) in Errors(r) <==> !WellFormedGps(raw.gps, parseFloat)
    ensures HasErrorAt(Errors(r), [VitalsField, BloodPressureField]) <==> !WellFormedBloodPressure(raw.vitals.bloodPressure)
    ensures (ValidateBloodPressure(raw.vitals.bloodPressure).Failure?
             && FieldError([VitalsField, BloodPressureField], ValidateBloodPressure(raw.vitals.bloodPressure).error) in Errors(r))
        <==> !WellFormedBloodPressure(raw.vitals.bloodPressure)
    ensures forall e :: e in Errors(r) ==>
      || e == FieldError([UserIdField], UserIdNotPositive)
      || e == FieldError([ContactsField], ContactFormat)
      || e == FieldError([GpsField], GpsFormat)
      || (ValidateBloodPressure(raw.vitals.bloodPressure).Failure?
          && e == FieldError([VitalsField, BloodPressureField], ValidateBloodPressure(raw.vitals.bloodPressure).error))
    ensures InFieldOrder(Errors(r), SosFieldRank)
  {
    SosErrorsOnlyFailing(raw, parseFloat);
    SosUserIdError(raw, parseFloat);
    SosContactsError(raw, parseFloat);
    SosGpsError(raw, parseFloat);
    SosVitalsError(raw, parseFloat);
    SosErrorsEmptyIffValid(raw, parseFloat);
    SosErrorsInFieldOrder(raw, parseFloat);
    var errs := SosErrors(raw, parseFloat);
    if |errs| == 0 then Success(raw) else Failure(errs)
  }
}

=== FILE: vitals.dfy ===
/**
 The `VitalInfo` model of main.py: SpO2, a "systolic/diastolic" blood-pressure
 string and a pulse, with the blood-pressure validator and the normal-range check.
 */
module Vitals {
  import opened Wrappers
  import opened PyText
  import opened Fields

  datatype VitalInfo = VitalInfo(spo2: real, bloodPressure: string, pulse: int)

  /** A digit string whose value is positive. */
  predicate PositiveDecimal(s: string) {
    IsDigits(s) && HasNonZeroDigit(s)
  }

  /** v holds exactly one '/'. */
  predicate OneSlash(v: string) {
    '/' in v && multiset(v)['/'] == 1
  }

  /**
   A reading the validator accepts: exactly one '/', and on each side a
   non-empty run of digits that is not all zeros.
   */
  predicate WellFormedBloodPressure(v: string) {
    OneSlash(v) && PositiveDecimal(Before(v, '/')) && PositiveDecimal(After(v, '/'))
  }

  /**
   `validate_blood_pressure`: unpack `v.split("/")` into two parts, reject
   non-digit parts, then reject parts whose value is not positive.
   */
  function ValidateBloodPressure(v: string): (r: Result<string, Error>)
    ensures r.Success? <==> WellFormedBloodPressure(v)
    ensures r.Success? ==> r.value == v
    ensures !OneSlash(v) <==> r == Failure(BloodPressureUnpack(multiset(v)['/'] + 1))
    ensures OneSlash(v) ==>
      (r == Failure(BloodPressureFormat) <==> !IsDigits(Before(v, '/')) || !IsDigits(After(v, '/')))
    ensures OneSlash(v) ==>
      (r == Failure(BloodPressureNotPositive) <==>
        IsDigits(Before(v, '/')) && IsDigits(After(v, '/'))
        && (!HasNonZeroDigit(Before(v, '/')) || !HasNonZeroDigit(After(v, '/'))))
  {
    SplitInTwo(v, '/');
    var parts := SplitOn(v, '/');
    if |parts| != 2 then Failure(BloodPressureUnpack(|parts|))
    else
      var systolic := parts[0];
      var diastolic := parts[1];
      assert systolic == Before(v, '/') && diastolic == After(v, '/');
      if !IsDigits(systolic) || !IsDigits(diastolic) then Failure(BloodPressureFormat)
      else
        ValuePositiveIffNonZeroDigit(systolic);
        ValuePositiveIffNonZeroDigit(diastolic);
        if DigitsValue(systolic) <= 0 || DigitsValue(diastolic) <= 0 then Failure(BloodPressureNotPositive)
        else Success(v)
  }

  /** `str(s) + "/" + str(d)` is accepted exactly when both numbers are positive. */
  lemma BloodPressureOfNumbers(systolic: nat, diastolic: nat)
    ensures ValidateBloodPressure(NatToDecimal(systolic) + "/" + NatToDecimal(diastolic)).Success?
        <==> systolic > 0 && diastolic > 0
  {
    var s := NatToDecimal(systolic);
    var d := NatToDecimal(diastolic);
    assert '/' !in s by { assert !IsDigit('/'); }
    assert '/' !in d by { assert !IsDigit('/'); }
    SplitOfJoinedPair(s, '/', d);
    ValuePositiveIffNonZeroDigit(s);
    ValuePositiveIffNonZeroDigit(d);
  }

  /** A reading built from two slash-free sides is judged on those sides alone. */
  lemma BloodPressureOfSides(a: string, b: string)
    requires '/' !in a && '/' !in b
    ensures ValidateBloodPressure(a + "/" + b) ==
      if !IsDigits(a) || !IsDigits(b) then Failure(BloodPressureFormat)
      else if !HasNonZeroDigit(a) || !HasNonZeroDigit(b) then Failure(BloodPressureNotPositive)
      else Success(a + "/" + b)
  {
    SplitOfJoinedPair(a, '/', b);
  }

  /** Sides that are digit strings with a non-zero leading digit form an accepted reading. */
  lemma BloodPressureOfPositiveSides(a: string, b: string)
    requires IsDigits(a) && IsDigits(b) && a[0] != '0' && b[0] != '0'
    ensures ValidateBloodPressure(a + "/" + b).Success?
  {
    assert '/' !in a by { assert !IsDigit('/'); }
    assert '/' !in b by { assert !IsDigit('/'); }
    BloodPressureOfSides(a, b);
  }

  /** The example value of the `blood_pressure` field, "120/80", is accepted unchanged. */
  lemma BloodPressureAcceptedExample()
    ensures ValidateBloodPressure("120/80") == Success("120/80")
  {
    BloodPressureOfPositiveSides("120", "80");
    assert "120" + "/" + "80" == "120/80";
  }

  /**
   A side that is not a digit string ("abc/80", "-5/80", "/80") fails the
   digit check, whatever the other side holds.
   */
  lemma BloodPressureNonDigitSide(a: string, b: string)
    requires '/' !in a && '/' !in b
    requires !IsDigits(a)
    ensures ValidateBloodPressure(a + "/" + b) == Failure(BloodPressureFormat)
    ensures ValidateBloodPressure(b + "/" + a) == Failure(BloodPressureFormat)
  {
    BloodPressureOfSides(a, b);
    BloodPressureOfSides(b, a);
  }

  /** A side made only of zeros ("0/80", "00/80") passes the digit check and fails the positivity check. */
  lemma BloodPressureZeroSide(a: string, b: string)
    requires IsDigits(a) && IsDigits(b)
    requires forall i :: 0 <= i < |a| ==> a[i] == '0'
    ensures ValidateBloodPressure(a + "/" + b) == Failure(BloodPressureNotPositive)
    ensures ValidateBloodPressure(b + "/" + a) == Failure(BloodPressureNotPositive)
  {
    assert '/' !in a by { assert !IsDigit('/'); }
    assert '/' !in b by { assert !IsDigit('/'); }
    BloodPressureOfSides(a, b);
    BloodPressureOfSides(b, a);
  }

  /**
   A wrong number of parts fails the unpacking itself: three slash-free pieces
   joined by '/' ("120/80/1") give three parts, a slash-free reading ("120") one.
   */
  lemma BloodPressureUnpackExamples(a: string, b: string, c: string)
    requires '/' !in a && '/' !in b && '/' !in c
    ensures ValidateBloodPressure(a + "/" + b + "/" + c) == Failure(BloodPressureUnpack(3))
    ensures ValidateBloodPressure(a) == Failure(BloodPressureUnpack(1))
  {
    assert multiset(a)['/'] == 0 && multiset(b)['/'] == 0 && multiset(c)['/'] == 0;
    assert multiset(a + "/" + b + "/" + c) == multiset(a) + multiset{'/'} + multiset(b) + multiset{'/'} + multiset(c);
  }

  /** `is_normal`: SpO2 above 90 and pulse within 60..100 inclusive. */
  predicate IsNormal(v: VitalInfo) {
    v.spo2 > 90.0 && 60 <= v.pulse <= 100
  }

  /** The edges of the normal range: SpO2 90 is not normal, pulses 60 and 100 are, 59 and 101 are not. */
  lemma NormalRangeEdges(bp: string)
    ensures !IsNormal(VitalInfo(90.0, bp, 75))
    ensures IsNormal(VitalInfo(90.5, bp, 60)) && IsNormal(VitalInfo(90.5, bp, 100))
    ensures !IsNormal(VitalInfo(99.0, bp, 59)) && !IsNormal(VitalInfo(99.0, bp, 101))
  {
  }

  /** The blood-pressure reading plays no part in whether vitals are normal. */
  lemma NormalIgnoresBloodPressure(v: VitalInfo, bp: string)
    ensures IsNormal(v) <==> IsNormal(v.(bloodPressure := bp))
  {
  }

  /** Validating a `VitalInfo`: its one validated field is blood_pressure. */
  function ValidateVitalInfo(raw: VitalInfo): (r: Result<VitalInfo, seq<FieldError>>)
    ensures r.Success? <==> WellFormedBloodPressure(raw.bloodPressure)
    ensures r.Success? ==> r.value == raw
    ensures r.Failure? ==> r.error == [FieldError([BloodPressureField], ValidateBloodPressure(raw.bloodPressure).error)]
  {
    var errs := ErrorsAt([BloodPressureField], ValidateBloodPressure(raw.bloodPressure));
    if |errs| == 0 then Success(raw) else Failure(errs)
  }

  /**
   Nested under vital_info, a `VitalInfo` reports nothing when the reading is
   accepted, and otherwise the blood-pressure validator's own error at
   vital_info.blood_pressure.
   */
  lemma VitalsNestedErrors(v: VitalInfo)
    ensures Nest(VitalsField, Errors(ValidateVitalInfo(v))) ==
      if WellFormedBloodPressure(v.bloodPressure) then []
      else [FieldError([VitalsField, BloodPressureField], ValidateBloodPressure(v.bloodPressure).error)]
  {
    var errs := Errors(ValidateVitalInfo(v));
    if !WellFormedBloodPressure(v.bloodPressure) {
      assert [VitalsField] + errs[0].loc == [VitalsField, BloodPressureField];
    }
  }

  /** Nested under vital_info, a `VitalInfo` reports an error at its blood_pressure exactly when the reading is rejected. */
  lemma VitalsErrorAt(v: VitalInfo)
    ensures HasErrorAt(Nest(VitalsField, Errors(ValidateVitalInfo(v))), [VitalsField, BloodPressureField])
        <==> !WellFormedBloodPressure(v.bloodPressure)
  {
    var r := ValidateVitalInfo(v);
    assert [VitalsField] + [BloodPressureField] == [VitalsField, BloodPressureField];
    HasErrorAtNest(VitalsField, Errors(r), [BloodPressureField]);
    if r.Failure? {
      assert Errors(r)[0].loc == [BloodPressureField];
    }
  }
}

=== FILE: words.dfy ===
/**
 Python's `str.split()` with no separator: the maximal runs of non-whitespace
 characters of a string, with leading, trailing and repeated whitespace
 dropped. `len(text.split())` is how main.py counts the words of a reminder.
 */
module Words {

  /**
   `c.isspace()` as CPython answers it: the ASCII controls TAB..CR and
   FS..US, SPACE, NEL, NO-BREAK SPACE, OGHAM SPACE MARK, the spaces
   U+2000..U+200A, LINE and PARAGRAPH SEPARATOR, NARROW NO-BREAK SPACE,
   MEDIUM MATHEMATICAL SPACE and IDEOGRAPHIC SPACE.
   */
  predicate IsSpace(c: char) {
    || '\U{0009}' <= c <= '\U{000D}'
    || '\U{001C}' <= c <= '\U{001F}'
    || c == ' '
    || c == '\U{0085}'
    || c == '\U{00A0}'
    || c == '\U{1680}'
    || '\U{2000}' <= c <= '\U{200A}'
    || c == '\U{2028}'
    || c == '\U{2029}'
    || c == '\U{202F}'
    || c == '\U{205F}'
    || c == '\U{3000}'
  }

  /** A word as `split()` returns it: non-empty, no whitespace inside. */
  predicate IsWord(w: string) {
    |w| > 0 && forall j :: 0 <= j < |w| ==> !IsSpace(w[j])
  }

  /** The longest prefix of s that holds no whitespace. */
  function LeadingWord(s: string): (w: string)
    ensures w <= s
    ensures forall j :: 0 <= j < |w| ==> !IsSpace(w[j])
    ensures |w| < |s| ==> IsSpace(s[|w|])
    ensures |s| > 0 && !IsSpace(s[0]) ==> |w| > 0
  {
    if |s| == 0 || IsSpace(s[0]) then [] else [s[0]] + LeadingWord(s[1..])
  }

  /** `s.split()`: the words of s in order. */
  function Split(s: string): (ws: seq<string>)
    ensures forall k :: 0 <= k < |ws| ==> IsWord(ws[k])
    decreases |s|
  {
    if |s| == 0 then []
    else if IsSpace(s[0]) then Split(s[1..])
    else
      var w := LeadingWord(s);
      [w] + Split(s[|w|..])
  }

  /**
   Reference count of words, scanning left to right: the number of positions
   holding a non-whitespace character whose left neighbour is whitespace or the
   start of the text. `afterSpace` says whether the character before s was whitespace.
   */
  function RunStarts(s: string, afterSpace: bool): nat
    decreases |s|
  {
    if |s| == 0 then 0
    else (if afterSpace && !IsSpace(s[0]) then 1 else 0) + RunStarts(s[1..], IsSpace(s[0]))
  }

  /** Reading non-whitespace characters inside a word starts no new word. */
  lemma {:induction false} RunStartsSkipsWord(s: string, k: nat)
    requires k <= |s|
    requires forall j :: 0 <= j < k ==> !IsSpace(s[j])
    ensures RunStarts(s, false) == RunStarts(s[k..], false)
  {
    if k > 0 {
      assert s[1..][k - 1..] == s[k..];
      RunStartsSkipsWord(s[1..], k - 1);
    }
  }

  /** `len(s.split())` equals the number of word starts in s. */
  lemma {:induction false} WordCountIsRunStarts(s: string)
    ensures |Split(s)| == RunStarts(s, true)
    decreases |s|
  {
    if |s| > 0 {
      if IsSpace(s[0]) {
        WordCountIsRunStarts(s[1..]);
      } else {
        var w := LeadingWord(s);
        var rest := s[|w|..];
        WordCountIsRunStarts(rest);
        RunStartsSkipsWord(s[1..], |w| - 1);
        assert s[1..][|w| - 1..] == rest;
        assert RunStarts(rest, false) == RunStarts(rest, true);
      }
    }
  }

  /** The characters of s that are not whitespace, in order. */
  function NonSpace(s: string): string
  {
    if |s| == 0 then [] else (if IsSpace(s[0]) then [] else [s[0]]) + NonSpace(s[1..])
  }

  /** Concatenation of a list of strings. */
  function Concat(ws: seq<string>): string
  {
    if |ws| == 0 then [] else ws[0] + Concat(ws[1..])
  }

  lemma {:induction false} NonSpaceOfWordPrefix(w: string, t: string)
    requires forall j :: 0 <= j < |w| ==> !IsSpace(w[j])
    ensures NonSpace(w + t) == w + NonSpace(t)
  {
    if |w| > 0 {
      assert (w + t)[1..] == w[1..] + t;
      NonSpaceOfWordPrefix(w[1..], t);
      assert w == [w[0]] + w[1..];
    } else {
      assert w + t == t;
    }
  }

  /** `split()` loses only whitespace: its words concatenated are the non-whitespace characters of s. */
  lemma {:induction false} SplitKeepsAllText(s: string)
    ensures Concat(Split(s)) == NonSpace(s)
    decreases |s|
  {
    if |s| > 0 {
      if IsSpace(s[0]) {
        SplitKeepsAllText(s[1..]);
      } else {
        var w := LeadingWord(s);
        var rest := s[|w|..];
        SplitKeepsAllText(rest);
        assert s == w + rest;
        NonSpaceOfWordPrefix(w, rest);
        assert ([w] + Split(rest))[1..] == Split(rest);
      }
    }
  }

  /** Whitespace before the text adds no word: `(sp + t).split() == t.split()`. */
  lemma {:induction false} SplitSkipsSpace(sp: string, t: string)
    requires forall j :: 0 <= j < |sp| ==> IsSpace(sp[j])
    ensures Split(sp + t) == Split(t)
    decreases |sp|
  {
    if |sp| > 0 {
      assert (sp + t)[0] == sp[0];
      assert (sp + t)[1..] == sp[1..] + t;
      SplitSkipsSpace(sp[1..], t);
    } else {
      assert sp + t == t;
    }
  }

  /**
   A word followed by whitespace, or by the end of the text, is the first word
   of the split: `(w + sp + t).split() == [w] + t.split()`. With
   `SplitSkipsSpace` this fixes where each word of the split begins and ends.
   */
  lemma {:induction false} SplitWordThenSpace(w: string, sp: string, t: string)
    requires IsWord(w)
    requires forall j :: 0 <= j < |sp| ==> IsSpace(sp[j])
    requires |sp| > 0 || |t| == 0
    ensures Split(w + sp + t) == [w] + Split(t)
  {
    var s := w + sp + t;
    assert s == w + (sp + t);
    assert s[0] == w[0];
    LeadingWordOf(w, sp + t);
    assert s[|w|..] == sp + t;
    SplitSkipsSpace(sp, t);
  }

  /** Words joined with single spaces. */
  function JoinSpaced(ws: seq<string>): string
  {
    if |ws| == 0 then []
    else if |ws| == 1 then ws[0]
    else ws[0] + [' '] + JoinSpaced(ws[1..])
  }

  lemma {:induction false} LeadingWordOf(w: string, t: string)
    requires IsWord(w)
    requires |t| == 0 || IsSpace(t[0])
    ensures LeadingWord(w + t) == w
  {
    if |w| > 1 {
      assert (w + t)[1..] == w[1..] + t;
      LeadingWordOf(w[1..], t);
    } else {
      assert (w + t)[1..] == t;
    }
  }

  /** `" ".join(ws).split() == ws` for a list of words. */
  lemma {:induction false} SplitJoinSpaced(ws: seq<string>)
    requires forall k :: 0 <= k < |ws| ==> IsWord(ws[k])
    ensures Split(JoinSpaced(ws)) == ws
  {
    if |ws| == 1 {
      LeadingWordOf(ws[0], []);
      assert ws[0] + [] == ws[0];
      assert ws[0][|ws[0]|..] == [];
    } else if |ws| > 1 {
      var rest := JoinSpaced(ws[1..]);
      var s := ws[0] + [' '] + rest;
      LeadingWordOf(ws[0], [' '] + rest);
      assert s == ws[0] + ([' '] + rest);
      assert s[|ws[0]|..] == [' '] + rest;
      assert ([' '] + rest)[1..] == rest;
      SplitJoinSpaced(ws[1..]);
    }
  }

  /**
   A cross-check of `Split`, with no counterpart in main.py (which calls
   `len(v.split())`): the same count in one left-to-right pass, without
   building the list of words.
   */
  method WordCount(s: string) returns (n: nat)
    ensures n == |Split(s)|
  {
    n := 0;
    var afterSpace := true;
    var i := 0;
    while i < |s|
      invariant 0 <= i <= |s|
      invariant afterSpace == (i == 0 || IsSpace(s[i - 1]))
      invariant n + RunStarts(s[i..], afterSpace) == RunStarts(s, true)
    {
      assert s[i..][1..] == s[i + 1..];
      if afterSpace && !IsSpace(s[i]) {
        n := n + 1;
      }
      afterSpace := IsSpace(s[i]);
      i := i + 1;
    }
    WordCountIsRunStarts(s);
  }
}

=== FILE: wrappers.dfy ===
/** Failure-carrying result types used by every validator of the model. */
module Wrappers {

  /** Present or absent value; the outcome of an abstract parser. */
  datatype Option<+T> = None | Some(value: T)

  /** A validated value or the error that rejected it. */
  datatype Result<+T, +E> = Success(value: T) | Failure(error: E)
}
